=== FILE: README.md ===
# graphstack core, modelled in Dafny

This project models the metadata and execution core of graphstack, a
decorator-driven TypeScript framework. The framework maps GraphQL queries,
mutations, subscriptions and field resolvers onto plain controller and
resolver classes. The model covers:

- **The decorator registry** (`MetadataArgs`, `Decorators`). It is a record of
  six append-only lists with a `reset`, plus the lazily created process-wide
  instance. Each decorator appends one fact and fills in its defaults.
- **The descriptor builders** (`ActionBuilder`, `ResolveBuilder`). Registry
  facts are joined on `(target, methodName)`. The literal actions and
  resolvers that modules declare are appended after them.
- **The action executor** (`Executor`, `ExecutorProps`). This is the
  five-step pipeline:
  1. the transaction decision;
  2. dependency-container setup;
  3. authorization;
  4. validation;
  5. invocation.

  The DI container is a map from tokens to entries. Each step yields a
  `Result` and appends to an event trace. Promises are flattened, so each
  step completes, in order, with success or failure. User code enters as
  function-typed parameters of `Env`: the setup hook, the authorization
  checker, rule classes, validators and the target method.
- **The schema builder's decision logic** (`SchemaBuilder`):
  - module-list assembly;
  - schema-path collection and its empty-list error;
  - the action-type to root-type map;
  - resolver-map keying and override order. The map is built by a sequence
    of writes applied left to right. `LastPut` is an independent reference
    for it, read from the end.
  - subscription-result normalisation;
  - the relation-resolver short-circuit;
  - the shape of the calls the executor receives.
- **The `init` command's decisions** (`InitCommand`):
  - the language and database defaults;
  - the ordered file plan, with which files are kept when they exist;
  - the docker-compose selection and its Oracle error;
  - the `package.json` augmentation, over an abstract JSON object.
- **The sample validators and resolvers** (`Samples`). One of them is plugged
  into the executor: a `likes` call whose `owner` the validator rejects never
  reaches the method.

`Wrappers` holds `Option` and `Result`. It also holds the shared
JavaScript-facing types and `||` on optional strings. `Js` holds JSON-like
values and JavaScript truthiness. `Seqs` holds the filter-map (`Collect`) and
`Flatten` lemmas the builders use.

Where the code and its documentation disagree, the model follows the code:

- **Module-declared actions.** These are transactional only when
  `transaction === true` (`src/metadata/ActionMetadataBuilder.ts:98`). The
  option's doc comment says mutations default to transactional
  (`src/options/GraphModuleControllerAction.ts:31-33`).
- **`dataLoader`.** It is on only when the flag is exactly `true`
  (`src/metadata/ResolveMetadataBuilder.ts:93,125`). The doc comment says it
  is enabled by default (`src/metadata-args/ResolveMetadataArgs.ts:22-24`).
- **Authorization results.** The checker's documentation says it must return
  `true` (`src/options/SchemaBuilderOptions.ts:16-19`). The executor drops
  whatever a rule check returns; only a throw or rejection stops the run
  (`src/ActionExecutor.ts:97-109`). `ExecutorProps.AuthorizationValuesIgnored`
  proves that runs differing only in the values the checks return are
  identical.
- **No restoring step.** The run ends when the method is invoked
  (`src/ActionExecutor.ts:132-139`). Nothing re-registers the ambient entity
  manager after a transaction, so the trace ends with the commit or rollback
  event.
- **The two entry points.** `executeControllerAction` and `executeResolver`
  are the same function of their input (`Executor.ExecuteResolver`).

## Model

| member | source | states |
|---|---|---|
| `Types.OrElse` | src/metadata/ActionMetadataBuilder.ts:82 | `s \|\| fallback` on an optional string: the string when it is present and non-empty, the fallback otherwise |
| `MetadataArgs.NewStorage` | src/metadata-args/MetadataArgsStorage.ts:20-45 | a freshly constructed registry has all six lists empty |
| `MetadataArgs.Reset` | src/metadata-args/MetadataArgsStorage.ts:54-61 | after `reset` all six lists are empty whatever they held, the same as a fresh registry |
| `MetadataArgs.ResetIdempotent` | src/metadata-args/MetadataArgsStorage.ts:54-61 | resetting twice equals resetting once |
| `MetadataArgs.AddController` | src/metadata-args/MetadataArgsStorage.ts:20 | the fact is appended at the end of `controllers`; the other five lists are unchanged |
| `MetadataArgs.AddAction` | src/metadata-args/MetadataArgsStorage.ts:25 | the fact is appended at the end of `actions`; the other five lists are unchanged |
| `MetadataArgs.AddResolver` | src/metadata-args/MetadataArgsStorage.ts:30 | the fact is appended at the end of `resolvers`; the other five lists are unchanged |
| `MetadataArgs.AddResolve` | src/metadata-args/MetadataArgsStorage.ts:35 | the fact is appended at the end of `resolves`; the other five lists are unchanged |
| `MetadataArgs.AddValidator` | src/metadata-args/MetadataArgsStorage.ts:40 | the fact is appended at the end of `validators`; the other five lists are unchanged |
| `MetadataArgs.AddAuthorized` | src/metadata-args/MetadataArgsStorage.ts:45 | the fact is appended at the end of `authorizes`; the other five lists are unchanged |
| `MetadataArgs.AppendGrowsByOne` | src/metadata-args/MetadataArgsStorage.ts:20-45 | every append grows the registry's total number of facts by exactly one |
| `MetadataArgs.GetStorage` | src/index.ts:64-69 | with an empty global slot, a new empty registry is allocated at a fresh reference and stored in the slot; with a filled slot, its registry is returned and nothing changes; the slot always ends up holding the returned reference |
| `MetadataArgs.GetStorageStable` | src/index.ts:64-69 | two consecutive calls return the identical instance, and the second leaves the globals as the first left them |
| `Decorators.OptionName` | src/decorator/Query.ts:12 | the stored name is present iff options exist and their name is non-empty, and is then that name |
| `Decorators.Controller` | src/decorator/Controller.ts:6-9 | appends exactly `{target}` to `controllers`; nothing else changes |
| `Decorators.ControllerNoDedup` | src/decorator/Controller.ts:8 | applying it twice to one class records the class twice |
| `Decorators.Query` | src/decorator/Query.ts:6-15 | appends exactly one query fact for the owner and method, keeping every earlier action; the name follows `OptionName`; transactional iff `transaction === true`; only `actions` changes |
| `Decorators.Mutation` | src/decorator/Mutation.ts:6-15 | appends exactly one mutation fact; transactional unless `transaction === false`, so also when options are absent; only `actions` changes |
| `Decorators.Subscription` | src/decorator/Subscription.ts:6-15 | appends exactly one subscription fact; transactional iff `transaction === true`; only `actions` changes |
| `Decorators.Resolver` | src/decorator/Resolver.ts:6-12 | appends `{target, name}` with the name, class or string, exactly as given; only `resolvers` changes |
| `Decorators.IsMany` | src/decorator/Resolve.ts:8-9 | absent parameter metadata gives `undefined`; otherwise true iff the first parameter type is `Array` |
| `Decorators.Resolve` | src/decorator/Resolve.ts:6-16 | appends one fact; `dataLoader` is true iff parameter metadata exists and starts with `Array`, and is undefined, not an error, without metadata; the name is kept only when non-empty; only `resolves` changes |
| `Decorators.Authorized` | src/decorator/Authorized.ts:8-15 | appends one fact; an absent argument becomes the empty role list, and a given role list or checker class is stored unchanged; only `authorizes` changes |
| `Decorators.ArgsValidator` | src/decorator/ArgsValidator.ts:7-14 | appends exactly `{target, methodName, validator}`; only `validators` changes |
| `Decorators.ValidatorsInApplicationOrder` | src/decorator/ArgsValidator.ts:9-13 | repeated applications keep every earlier fact and add one fact per application, in application order |
| `Metadata.EntityName` | src/metadata/ResolveMetadataBuilder.ts:86 | the naming strategy's result when one is configured, else the class name |
| `ActionBuilder.ValidatorsForMembership` | src/metadata/ActionMetadataBuilder.ts:50-52 | a validator class is joined into a descriptor iff some registration for the same `(target, methodName)` names it |
| `ActionBuilder.ValidatorsForAppend` | src/metadata/ActionMetadataBuilder.ts:50 | a validator registered later is joined in after every earlier one: registration order is kept |
| `ActionBuilder.AuthorizesForAppend` | src/metadata/ActionMetadataBuilder.ts:51 | a method-level rule registered later is joined in after every earlier one: registration order is kept |
| `ActionBuilder.AuthorizesForMembership` | src/metadata/ActionMetadataBuilder.ts:51 | a rule is joined in iff some method-level registration for the same `(target, methodName)` carries it |
| `ActionBuilder.FromArgs` | src/metadata/ActionMetadataBuilder.ts:77-87 | kind, target and method are copied; the name is `name \|\| methodName`; transactional iff the flag is exactly true; validators and rules are the joined registrations |
| `ActionBuilder.FromModuleDefinition` | src/metadata/ActionMetadataBuilder.ts:92-102 | a literal module action takes its kind from the entry, its name from `name \|\| action`, is transactional only when the flag is exactly true, and absent lists become empty |
| `ActionBuilder.Build` | src/metadata/ActionMetadataBuilder.ts:31-68 | the result is every registry descriptor followed by every module-declared descriptor, nothing dropped or merged |
| `ActionBuilder.ForControllerMembership` | src/metadata/ActionMetadataBuilder.ts:46-53 | a descriptor of one controller comes from an action registered on that controller's class, and every such action yields one |
| `ActionBuilder.RegistryMembership` | src/metadata/ActionMetadataBuilder.ts:45-54 | the registry half holds exactly the descriptors of actions whose class is some registered controller's class |
| `ActionBuilder.FromControllersConcat` | src/metadata/ActionMetadataBuilder.ts:45-54 | controllers outer: a later controller's descriptors all come after an earlier one's |
| `ActionBuilder.ForControllerOrder` | src/metadata/ActionMetadataBuilder.ts:46-53 | each controller yields one descriptor per action registered on it |
| `ActionBuilder.ForControllerAppend` | src/metadata/ActionMetadataBuilder.ts:46-53 | registering one more action appends its descriptor to its controller's list, after every earlier action, and leaves every other controller's list as it was |
| `ActionBuilder.NoDescriptorFromClassesOrGlobs` | src/metadata/ActionMetadataBuilder.ts:57-65 | class and directory entries of a module produce no descriptor |
| `ActionBuilder.ModuleMembership` | src/metadata/ActionMetadataBuilder.ts:57-65 | a module-declared descriptor comes from a literal entry of some module, and every literal entry yields one |
| `ActionBuilder.ModuleDescriptorsConcat` | src/metadata/ActionMetadataBuilder.ts:57-65 | modules listed later contribute after earlier modules |
| `ResolveBuilder.ResolverTypeName` | src/metadata/ResolveMetadataBuilder.ts:85-90 | a class name maps to the naming rule and becomes the entity; a string name is kept and no entity is set |
| `ResolveBuilder.FromArgs` | src/metadata/ResolveMetadataBuilder.ts:82-97 | the target is the resolver's class; the property name is `name \|\| methodName`; `dataLoader` holds iff the flag is exactly true; validators and rules are the joined registrations |
| `ResolveBuilder.ModelTypeName` | src/metadata/ResolveMetadataBuilder.ts:105-115 | a class model uses the naming rule, an entity schema its declared name, and a string is used as is |
| `ResolveBuilder.FromModuleMethod` | src/metadata/ResolveMetadataBuilder.ts:102-130 | a string method gives method and property name equal to the string, no data loader and empty lists; an object method gives `name \|\| methodName`, data loader iff `many === true`, and absent lists become empty |
| `ResolveBuilder.Build` | src/metadata/ResolveMetadataBuilder.ts:34-73 | every registry descriptor, then every module-declared one, nothing dropped or merged |
| `ResolveBuilder.RegistryMembership` | src/metadata/ResolveMetadataBuilder.ts:48-57 | the registry half holds exactly the descriptors of resolves whose class is some registered resolver's class |
| `ResolveBuilder.FromResolversConcat` | src/metadata/ResolveMetadataBuilder.ts:48-57 | resolvers outer: a later resolver's descriptors all come after an earlier one's |
| `ResolveBuilder.OnePerMethod` | src/metadata/ResolveMetadataBuilder.ts:63-67 | a literal module resolver yields exactly one descriptor per method, in method order |
| `ResolveBuilder.ModuleDescriptorsConcat` | src/metadata/ResolveMetadataBuilder.ts:60-70 | modules listed later contribute after earlier modules |
| `ResolveBuilder.ModuleEntriesDescriptorsConcat` | src/metadata/ResolveMetadataBuilder.ts:61-68 | within a module, later entries contribute after earlier ones |
| `ResolveBuilder.EntryMembership` | src/metadata/ResolveMetadataBuilder.ts:62-67 | an entry yields a descriptor iff it is a literal resolver object and the descriptor is that of one of its methods |
| `ResolveBuilder.EntriesMembership` | src/metadata/ResolveMetadataBuilder.ts:61-68 | a module's entries yield exactly the descriptors of the methods of its literal resolver objects |
| `ResolveBuilder.ModuleMembership` | src/metadata/ResolveMetadataBuilder.ts:60-70 | the module half holds exactly the descriptors of methods of literal resolver objects in some module's `resolvers` |
| `ResolveBuilder.NoDescriptorFromClassesOrGlobs` | src/metadata/ResolveMetadataBuilder.ts:60-70 | class and directory entries of a module produce no descriptor |
| `Executor.ManagerFor` | src/ActionExecutor.ts:50-60 | no manager without a connection; a transaction manager iff there is a connection, the descriptor asks for a transaction, and the store is not MongoDB |
| `Executor.ExecuteResolver` | src/ActionExecutor.ts:29-38 | both entry points are the same run |
| `Executor.RegisterRepositories` | src/ActionExecutor.ts:74-76 | every custom repository class is bound to its repository on the given manager, and no other token changes |
| `Executor.Register` | src/ActionExecutor.ts:66-77 | the container always maps `Container` to itself; without a manager nothing else changes; with one, the entity manager and every repository are registered, and tokens it does not write keep their entries |
| `Executor.Setup` | src/ActionExecutor.ts:80-84 | without a setup hook the container passes through unchanged |
| `Executor.CallFor` | src/ActionExecutor.ts:132-139 | the method gets `(args, context, info)` iff the descriptor is a query or mutation action; every other descriptor also gets `obj` first |
| `Executor.CheckRule` | src/ActionExecutor.ts:97-101 | a role list goes to the global checker, and fails when none is configured; a class is asked through its own `check` on the container |
| `Executor.RunInOrder` | src/ActionExecutor.ts:95-109 | the checks run in order and the events record exactly the checks run; success means every check passed and all were run; failure means the last check run failed with that error and every earlier one passed |
| `Executor.Step5` | src/ActionExecutor.ts:132-139 | one event, the method's call with the shape `CallFor` gives; the method's result is the outcome; the container is left as it was |
| `Executor.Step4` | src/ActionExecutor.ts:115-127 | the container is unchanged; the run ends with the method's call iff every validator passes; a rejection is the outcome, otherwise the method's result is |
| `Executor.Step3` | src/ActionExecutor.ts:92-110 | the container is unchanged; a failing rule ends the run with its error having recorded rule checks only; otherwise the outcome is validation's |
| `Executor.Step2` | src/ActionExecutor.ts:66-87 | a failing setup hook ends the run with its error before any rule; otherwise the outcome is that of steps 3 to 5 on the prepared container, which the run leaves as it is |
| `Executor.Step1` | src/ActionExecutor.ts:47-61 | the transaction changes neither the outcome nor the container; with one the trace opens it first and ends in commit on success, rollback on failure; without one the trace is the inner run's |
| `ExecutorProps.CheckRuleSources` | src/ActionExecutor.ts:97-101 | a role rule does not depend on the container or the class checks; a class rule does not depend on the global checker |
| `ExecutorProps.RunInOrderSpec` | src/ActionExecutor.ts:95-109 | checks run in order; the run succeeds iff every check does, and then records every check; otherwise it stops at the first failure with that failure's error, having recorded exactly the checks up to it |
| `ExecutorProps.Step5Spec` | src/ActionExecutor.ts:132-139 | invocation calls the target method with the call shape `CallFor` gives, and its result is the outcome, unchanged |
| `ExecutorProps.Step4Spec` | src/ActionExecutor.ts:115-127 | every validator is called with the call's `args`; the method is reached iff all pass; otherwise the first rejection is the outcome |
| `ExecutorProps.Step3Spec` | src/ActionExecutor.ts:92-110 | rules run before validators; validation is reached only if every rule passes; the first failing rule's error is the outcome |
| `ExecutorProps.Step2Spec` | src/ActionExecutor.ts:66-87 | the setup hook runs, when configured, before any rule; a failing hook ends the run with its error; otherwise steps 3 to 5 run on the container it prepared |
| `ExecutorProps.Step1Inner` | src/ActionExecutor.ts:47-61 | a transaction wraps exactly the inner run, ending in commit on success and rollback on failure; without one the run is the inner run |
| `ExecutorProps.TransactionBracket` | src/ActionExecutor.ts:50-54 | a transaction opens iff there is a connection, the descriptor asks for one, and the store is not MongoDB; it then comes first and its end comes last, commit iff the run succeeds, with no other transaction event between |
| `ExecutorProps.ResolverNeverTransactional` | src/ActionExecutor.ts:51 | a resolve descriptor never opens a transaction, and gets the ambient manager when there is a connection |
| `ExecutorProps.PipelineOrder` | src/ActionExecutor.ts:47-139 | every run's events follow the stage order transaction, setup, rules, validators, method, end; validators always see the call's `args`; setup appears iff configured |
| `ExecutorProps.PipelineInvokes` | src/ActionExecutor.ts:115-139 | the method is invoked iff setup, every rule and every validator pass, and then its result is the run's outcome |
| `ExecutorProps.SetupFailureStops` | src/ActionExecutor.ts:80-84 | a failing setup hook ends the run with its error before any rule, validator or method |
| `ExecutorProps.AuthorizationFailureStops` | src/ActionExecutor.ts:95-109 | a failing rule ends the run with the first failing rule's error, before any validator or the method |
| `ExecutorProps.ValidationFailureStops` | src/ActionExecutor.ts:117-127 | a rejecting validator ends the run with the first rejection's error, and the method is not invoked |
| `ExecutorProps.AuthorizationValuesIgnored` | src/ActionExecutor.ts:97-109 | two environments whose checks succeed and fail alike, whatever values they return, give identical runs |
| `SchemaBuilder.BuildModules` | src/SchemaBuilder.ts:146-158 | the module list is the options first, then each configured module in order, with classes instantiated |
| `SchemaBuilder.LoadSchemaPaths` | src/SchemaBuilder.ts:195-206 | fails with the missing-schemas error iff no module lists a schema path; otherwise the paths are exactly those some module lists, each module's list in turn, so that with `SchemaPathsOrder` later modules' paths come after earlier ones' |
| `SchemaBuilder.SchemaPathsOrder` | src/SchemaBuilder.ts:198-202 | paths are concatenated in module order |
| `SchemaBuilder.ResolverType` | src/SchemaBuilder.ts:419-429 | query, mutation and subscription map to `Query`, `Mutation` and `Subscription`, and only they do |
| `SchemaBuilder.LastWriteWins` | src/SchemaBuilder.ts:104-111 | the field each type and key ends up with is the one written last, else the starting one |
| `SchemaBuilder.ApplyAllKeys` | src/SchemaBuilder.ts:247 | a type is present iff it was present or some write touched it, and existing types keep their kind |
| `SchemaBuilder.Defaults` | src/SchemaBuilder.ts:218-237 | the default map holds exactly the `Date` and `Upload` scalars |
| `SchemaBuilder.ActionKey` | src/SchemaBuilder.ts:249-283 | subscriptions are keyed by `name \|\| methodName`, queries and mutations by `name` |
| `SchemaBuilder.ControllerOp` | src/SchemaBuilder.ts:243-297 | each action writes its field under its root type and key; subscriptions get a subscription field on that key |
| `SchemaBuilder.ControllerOps` | src/SchemaBuilder.ts:243-251 | fails with the iterator error iff no async iterator is configured and some action is a subscription; otherwise one write per action, in action order |
| `SchemaBuilder.RelationTypeName` | src/SchemaBuilder.ts:309-311 | the naming rule for class-targeted entities when configured, else the entity's target name |
| `SchemaBuilder.EntityOps` | src/SchemaBuilder.ts:308-319 | an empty type name writes nothing; otherwise the type is created and each relation gets a relation field, in order |
| `SchemaBuilder.RelationOps` | src/SchemaBuilder.ts:305-306 | without a connection no relation resolver is written |
| `SchemaBuilder.RelationValue` | src/SchemaBuilder.ts:323-324 | a defined `parent[property]` is returned without loading; loading happens iff it is undefined |
| `SchemaBuilder.CustomOp` | src/SchemaBuilder.ts:360-366 | the resolver's type is always created; the field is written, keyed by method name, iff the class has the method |
| `SchemaBuilder.CustomKeyedByMethod` | src/SchemaBuilder.ts:358-366 | every custom write is keyed by its method name under its type name, and only for methods the class has |
| `SchemaBuilder.Override` | src/SchemaBuilder.ts:110-111 | user `customResolvers` replace whole type entries; types they do not name keep theirs |
| `SchemaBuilder.BuildResolvers` | src/SchemaBuilder.ts:104-111 | fails iff controller resolvers fail; otherwise defaults, controllers, relations and custom resolvers are applied in that order, then `customResolvers` |
| `SchemaBuilder.Build` | src/SchemaBuilder.ts:84-111 | no schema paths means the missing-schemas error; with schema paths, the build fails iff building the resolver map fails, with its error; a built schema carries the module list, both descriptor lists built from it, the loaded path list and the resolver map |
| `SchemaBuilder.BuildNeedsIterator` | src/SchemaBuilder.ts:243-251 | with schema paths present, a registered subscription without `subscriptionAsyncIterator` fails the whole build with the iterator error |
| `SchemaBuilder.BuildResolverField` | src/SchemaBuilder.ts:104-111 | in a built schema, a field of a type `customResolvers` does not replace holds what the last write of the build put there, else the default's |
| `SchemaBuilder.ControllerCall` | src/SchemaBuilder.ts:283-294 | a query or mutation resolver runs its descriptor and the method gets `(args, context, info)` |
| `SchemaBuilder.SubscriptionCall` | src/SchemaBuilder.ts:255-267 | the subscription filter runs the descriptor with the payload as `obj` |
| `SchemaBuilder.FilterResult` | src/SchemaBuilder.ts:268-278 | an undefined result becomes `true`; any other result and any failure pass unchanged |
| `SchemaBuilder.FilterResultIdempotent` | src/SchemaBuilder.ts:268-278 | normalising twice equals normalising once |
| `SchemaBuilder.ResolveCall` | src/SchemaBuilder.ts:400-411 | a resolver without data loader runs its descriptor with the parent as `obj` |
| `SchemaBuilder.Parents` | src/SchemaBuilder.ts:376 | the batch's parents, one per key, in key order |
| `SchemaBuilder.BatchCall` | src/SchemaBuilder.ts:375-386 | a batch runs the descriptor once, with the parents in key order as `obj` and the first key's `args`, `context` and `info` |
| `SchemaBuilder.BatchOfOne` | src/SchemaBuilder.ts:375-386 | a batch of one key is the unbatched call with the parent wrapped in a list |
| `InitCommand.LanguageOf` | src/commands/InitCommand.ts:36 | TypeScript iff the flag is anything but undefined, even `false` |
| `InitCommand.DatabaseOf` | src/commands/InitCommand.ts:37 | the given database when non-empty, else `sqlite` |
| `InitCommand.Basename` | src/commands/InitCommand.ts:39 | the result is the last segment of the path with trailing slashes removed: a suffix of it holding no `/` that is either all of it or preceded by a `/`; a name without `/` is kept as is |
| `InitCommand.PackageName` | src/commands/InitCommand.ts:663-665 | the project name when non-empty, else `graphstack-project` |
| `InitCommand.DockerComposeTemplate` | src/commands/InitCommand.ts:680-760 | Oracle, and only Oracle, fails with its error; known databases get their own template; any other database gets the empty text |
| `InitCommand.Handler` | src/commands/InitCommand.ts:34-91 | the language, database, base path and package name are derived from the arguments; for Oracle the run stops after the first `package.json` write with the Oracle error; otherwise it performs the full plan |
| `InitCommand.PlanStartsAndEnds` | src/commands/InitCommand.ts:40-77 | a run that does not fail starts with the `package.json` write that keeps an existing file, and ends by creating the migration directory and then rewriting `package.json` |
| `InitCommand.DockerComposeUnlessSqlite` | src/commands/InitCommand.ts:41-42 | `docker-compose.yml` is written iff the database is not SQLite, and always keeps an existing file |
| `InitCommand.TsConfigIffTypeScript` | src/commands/InitCommand.ts:45-46 | `tsconfig.json` is written iff the language is TypeScript, and always overrides an existing file |
| `InitCommand.GeneratedCode` | src/commands/InitCommand.ts:49-71 | every generated source and schema file is written with override on |
| `InitCommand.KeptFiles` | src/commands/InitCommand.ts:40-47 | only `package.json` on its first write, `docker-compose.yml` and `README.md` are written without override |
| `InitCommand.DriverFor` | src/commands/InitCommand.ts:887-907 | a driver exists exactly for the seven known databases, and mysql and mariadb share the `mysql` driver |
| `InitCommand.Dependencies` | src/commands/InitCommand.ts:882-907 | always the framework at its version, plus exactly the database's driver when it has one |
| `InitCommand.DevDependencies` | src/commands/InitCommand.ts:866-880 | TypeScript gets `ts-node` and `typescript`, JavaScript the three Babel packages, each with a version range |
| `InitCommand.Scripts` | src/commands/InitCommand.ts:909-919 | TypeScript gets a `start` script only; JavaScript gets `compile` and `start`; each is a command text |
| `InitCommand.Extend` | src/commands/InitCommand.ts:866-880 | a falsy section becomes the new entries; an object section gets them merged over its own; another truthy value is left as it is |
| `InitCommand.AppendPackageJson` | src/commands/InitCommand.ts:863-921 | the three sections are present afterwards and each is extended with its entries; every other member is kept |
| `InitCommand.ExtendIdempotent` | src/commands/InitCommand.ts:866-880 | extending twice with the same entries equals extending once |
| `InitCommand.AppendPackageJsonIdempotent` | src/commands/InitCommand.ts:863-921 | augmenting an augmented `package.json` again changes nothing |
| `InitCommand.FreshTemplate` | src/commands/InitCommand.ts:663-675 | on the generated template the sections end up exactly as the language's tools, the framework plus driver, and the language's scripts; the name is kept |
| `InitCommand.Template` | src/commands/InitCommand.ts:663-675 | the template has exactly the name, version, description and the three sections, the sections empty and the name the one given |
| `Samples.ValidatePostSave` | sample/typescript/sample7-validator/validator/PostSaveArgsValidator.ts:8-28 | accepts iff both fields are given with a 10 to 200 character title and a 100 to 2000 character text; each failure has its own error, title checks first; an explicit `null` title or text passes the `undefined` test and fails on reading its `length` |
| `Samples.TitleErrorsFirst` | sample/typescript/sample7-validator/validator/PostSaveArgsValidator.ts:10-26 | a bad title, absent, `null`, too short or too long, is reported whatever the text is |
| `Samples.ValidatePosts` | sample/typescript/sample7-validator/validator/PostsArgsValidator.ts:8-20 | accepts iff a given limit is 1 to 100, a given offset is not negative, and a non-empty sort key is `name` or `last`; a `null` limit compares as 0 and is rejected as too small; each failure has its own error, in check order; all-absent arguments pass |
| `Samples.EmptySortAccepted` | sample/typescript/sample7-validator/validator/PostsArgsValidator.ts:18-19 | an empty sort key is treated as an absent one |
| `Samples.NullOffsetOrSortAsAbsent` | sample/typescript/sample7-validator/validator/PostsArgsValidator.ts:15-19 | a `null` offset (`null < 0` is false) or a `null` sort key (falsy) is treated as an absent one |
| `Samples.ValidatePostLikes` | sample/typescript/sample7-validator/validator/PostLikesArgsValidator.ts:8-11 | accepts iff the owner is undefined, `"my"` or `"all"`; otherwise fails with the owner error; the JavaScript sample's validator states the same rule |
| `Samples.LikesOnValidOwners` | sample/typescript/sample7-validator/resolver/PostResolver.ts:11-17 | on accepted owners, `"all"` gives ten times the post id, and undefined or `"my"` gives 1 |
| `Samples.AddedByCurrentUser` | sample/typescript/sample10-current-user/resolver/PhotoResolver.ts:12-17 | false without a current user; with one, true iff the photo's author is that user |
| `Samples.AddedByOneUser` | sample/typescript/sample10-current-user/resolver/PhotoResolver.ts:16 | of two users with different ids, at most one sees a photo as added by them |
| `Samples.RejectedOwnerNeverReachesLikes` | sample/typescript/sample7-validator/resolver/PostResolver.ts:9-11 | behind the executor, a rejected owner never invokes `likes`; once the container is set up the run fails with the owner error; an accepted owner gets the method's count |

## Left out

- **Promises and concurrency.** Checks whose promises run concurrently are
  modelled as running one after another. Each step completes with success
  or failure, and the first failure is the one reported.
- **Synchronous setup hooks.** A setup hook that returns a non-promise value
  is modelled like one that resolves.
- **Transaction commit failures** and the ORM's transaction internals. Each
  run has one DI container, given as a map.
- **The scoped container's state.** The container is an input to each run.
  Entries that user code adds while running are not tracked.
- **The TypeORM custom-repository registry.** The classes in it are the
  `repositories` of `Env`.
- **ORM connection creation, `makeExecutableSchema`, and schema-file loading
  (`fileLoader`, `mergeTypes`).** The pure decisions around them are kept.
- **The `Date` and `Upload` scalar implementations.** Only their presence in
  the default map is modelled.
- **DataLoader batching, caching and cache keys**, and the relation-id loader.
  A batch is modelled as the call the executor receives.
- **Loggers.**
- **Directory imports of controllers and resolvers.** The registry passed to
  the builders is the one after those imports.
- **The HTTP and socket server, the `vesper()` middleware, the CLI entry
  point, `GenerateModelsCommand`, and `ValidationError`.** None of them is
  part of this model.
- **Template texts of `init`, and `JSON.parse` / `JSON.stringify`.** A parsed
  `package.json` is a map from member names to JSON values; key order and
  formatting are not modelled.
- `InitCommand.Basename`: only POSIX paths are handled, as `path.basename`
  handles them on POSIX systems.
- `InitCommand.Extend`: a truthy `dependencies` value that is not a plain
  object is left unchanged. The driver assignment on such a value, which
  throws in strict mode, is not modelled.
- `Js.Property`: only own members of plain objects are read. Prototype
  properties of other values read as `undefined`.
- **Numbers.** JavaScript numbers are modelled as integers: in the sample
  validators' limits and offsets, in `likes`, and in the ids compared by
  `addedByCurrentUser`.
- **File-system failures in `init`.** If creating a directory, writing a
  file or reading `package.json` fails, the handler catches the error, logs
  it and exits the process with status 1 (`src/commands/InitCommand.ts:86-90`,
  `src/commands/CommandUtils.ts:13-38`). The model plans the file operations
  and has no file system, so its only failure is the Oracle error.
- **The text of JavaScript's own errors.** Reading `length` of `null`, and
  calling an `authorizationChecker` that is not configured, throw a
  `TypeError` whose message the engine composes (for the latter it names the
  whole callee, `this.builder.options.authorizationChecker`). `Samples.NullLength`
  and the error of `Executor.CheckRule` carry a shortened text; only which
  error is thrown is meant.
- **String lengths.** A string's length is its count of Unicode scalar values.
  JavaScript counts UTF-16 code units, so the two differ outside the Basic
  Multilingual Plane.
- `SchemaBuilder.BatchCall`: requires at least one key. DataLoader never
  calls a batch function with an empty key list.
- **Authorization on a class.** `Authorized` used as a class decorator records
  `object.constructor`, which for a class is `Function`, not the class. The
  model records the owner it is given.

=== FILE: action_builder.dfy ===
/**
 * Action descriptor building: a join of registry facts on
 * `(target, methodName)`, followed by the literal actions modules declare.
 * The storage passed in is the registry as it stands after the directory
 * globs of every module have been imported.
 */
module ActionBuilder {
  import opened Wrappers
  import opened Types
  import opened MetadataArgs
  import opened Metadata
  import opened Seqs

  /** The validator of a registration for `(target, methodName)`; nothing for any other. */
  function ValidatorOf(target: ClassRef, methodName: string): ValidatorArgs -> Option<ClassRef> {
    (v: ValidatorArgs) => if v.target == target && v.methodName == methodName then Some(v.validator) else None
  }

  /** The rule of a registration for `(target, methodName)`; nothing for any other. */
  function RuleOf(target: ClassRef, methodName: string): AuthorizedArgs -> Option<AuthorizeSpec> {
    (z: AuthorizedArgs) => if z.target == target && z.methodName == Some(methodName) then Some(z.roles) else None
  }

  /** Validator classes registered for `(target, methodName)`, in registration order. */
  function ValidatorsFor(vs: seq<ValidatorArgs>, target: ClassRef, methodName: string): seq<ClassRef> {
    Collect(vs, ValidatorOf(target, methodName))
  }

  /** Authorization rules registered for `(target, methodName)`, in registration order. */
  function AuthorizesFor(zs: seq<AuthorizedArgs>, target: ClassRef, methodName: string): seq<AuthorizeSpec> {
    Collect(zs, RuleOf(target, methodName))
  }

  /** A validator class is joined in iff some registration for the same `(target, methodName)` names it. */
  lemma ValidatorsForMembership(vs: seq<ValidatorArgs>, target: ClassRef, methodName: string, v: ClassRef)
    ensures v in ValidatorsFor(vs, target, methodName)
        <==> exists i :: 0 <= i < |vs| && vs[i] == ValidatorArgs(target, methodName, v)
  {
    CollectMembership(vs, ValidatorOf(target, methodName), v);
    if v in ValidatorsFor(vs, target, methodName) {
      var i :| 0 <= i < |vs| && ValidatorOf(target, methodName)(vs[i]) == Some(v);
      assert vs[i] == ValidatorArgs(target, methodName, v);
    }
    if exists i :: 0 <= i < |vs| && vs[i] == ValidatorArgs(target, methodName, v) {
      var i :| 0 <= i < |vs| && vs[i] == ValidatorArgs(target, methodName, v);
      assert ValidatorOf(target, methodName)(vs[i]) == Some(v);
    }
  }

  /** A validator registered later is joined in after every earlier one. */
  lemma ValidatorsForAppend(vs: seq<ValidatorArgs>, w: ValidatorArgs)
    ensures ValidatorsFor(vs + [w], w.target, w.methodName) == ValidatorsFor(vs, w.target, w.methodName) + [w.validator]
  {
    CollectConcat(vs, [w], ValidatorOf(w.target, w.methodName));
    assert Collect([w], ValidatorOf(w.target, w.methodName)) == [w.validator];
  }

  /** A method-level rule registered later is joined in after every earlier one: registration order is kept. */
  lemma AuthorizesForAppend(zs: seq<AuthorizedArgs>, w: AuthorizedArgs)
    requires w.methodName.Some?
    ensures AuthorizesFor(zs + [w], w.target, w.methodName.value) == AuthorizesFor(zs, w.target, w.methodName.value) + [w.roles]
  {
    CollectConcat(zs, [w], RuleOf(w.target, w.methodName.value));
    assert Collect([w], RuleOf(w.target, w.methodName.value)) == [w.roles];
  }

  /** A rule is joined in iff some registration for the same `(target, methodName)` carries it. */
  lemma AuthorizesForMembership(zs: seq<AuthorizedArgs>, target: ClassRef, methodName: string, rule: AuthorizeSpec)
    ensures rule in AuthorizesFor(zs, target, methodName)
        <==> exists i :: 0 <= i < |zs| && zs[i] == AuthorizedArgs(target, Some(methodName), rule)
  {
    CollectMembership(zs, RuleOf(target, methodName), rule);
    if rule in AuthorizesFor(zs, target, methodName) {
      var i :| 0 <= i < |zs| && RuleOf(target, methodName)(zs[i]) == Some(rule);
      assert zs[i] == AuthorizedArgs(target, Some(methodName), rule);
    }
    if exists i :: 0 <= i < |zs| && zs[i] == AuthorizedArgs(target, Some(methodName), rule) {
      var i :| 0 <= i < |zs| && zs[i] == AuthorizedArgs(target, Some(methodName), rule);
      assert RuleOf(target, methodName)(zs[i]) == Some(rule);
    }
  }

  /** `createFromMetadataArgs`, with the joins already applied. */
  function FromArgs(a: ActionArgs, s: Storage): (d: ActionMetadata)
    ensures d.kind == a.kind && d.target == a.target && d.methodName == a.methodName
    ensures TruthyString(a.name) ==> d.name == a.name.value
    ensures !TruthyString(a.name) ==> d.name == a.methodName
    ensures d.transaction <==> a.transaction == Some(true)
    ensures d.validators == ValidatorsFor(s.validators, a.target, a.methodName)
    ensures d.authorizes == AuthorizesFor(s.authorizes, a.target, a.methodName)
  {
    ActionMetadata(a.kind, a.target, a.methodName, OrElse(a.name, a.methodName),
                   a.transaction == Some(true),
                   ValidatorsFor(s.validators, a.target, a.methodName),
                   AuthorizesFor(s.authorizes, a.target, a.methodName))
  }

  /** The descriptors of one registered controller: its actions, in registration order. */
  function ForController(c: ControllerArgs, s: Storage): seq<ActionMetadata> {
    Collect(s.actions, ActionOf(c, s))
  }

  /** The descriptor of an action registered on controller `c`; nothing for any other action. */
  function ActionOf(c: ControllerArgs, s: Storage): ActionArgs -> Option<ActionMetadata> {
    (a: ActionArgs) => if a.target == c.target then Some(FromArgs(a, s)) else None
  }

  /** Controllers outer, actions inner. */
  function FromControllers(cs: seq<ControllerArgs>, s: Storage): seq<ActionMetadata>
    decreases |cs|
  {
    if cs == [] then [] else ForController(cs[0], s) + FromControllers(cs[1..], s)
  }

  /** The registry half of `build`. */
  function RegistryDescriptors(s: Storage): seq<ActionMetadata> {
    FromControllers(s.controllers, s)
  }

  /** `createFromModuleDefinition`: no registry lookup; absent lists become empty. */
  function FromModuleDefinition(m: ModuleAction): (d: ActionMetadata)
    ensures d.kind == m.kind && d.target == m.controller && d.methodName == m.action
    ensures d.name == OrElse(m.name, m.action)
    ensures d.transaction <==> m.transaction == Some(true)
    ensures d.validators == m.validators.GetOr([]) && d.authorizes == m.authorizes.GetOr([])
  {
    ActionMetadata(m.kind, m.controller, m.action, OrElse(m.name, m.action),
                   m.transaction == Some(true), m.validators.GetOr([]), m.authorizes.GetOr([]))
  }

  /** Literal actions of one `controllers` list; classes and globs produce nothing here. */
  function EntryDescriptors(es: seq<ControllerEntry>): seq<ActionMetadata> {
    Collect(es, LiteralOf)
  }

  /** The descriptor of a literal action entry; nothing for a class or a glob. */
  function LiteralOf(e: ControllerEntry): Option<ActionMetadata> {
    match e
    case ControllerAction(m) => Some(FromModuleDefinition(m))
    case _ => None
  }

  /** The module half of `build`, in module order then entry order. */
  function ModuleDescriptors(ms: seq<GraphModule>): seq<ActionMetadata>
    decreases |ms|
  {
    if ms == [] then [] else EntryDescriptors(Entries(ms[0])) + ModuleDescriptors(ms[1..])
  }

  /** `build(modules)`: every registry descriptor, then every module-declared one, with no deduplication. */
  function Build(ms: seq<GraphModule>, s: Storage): (r: seq<ActionMetadata>)
    ensures |r| == |RegistryDescriptors(s)| + |ModuleDescriptors(ms)|
    ensures r[..|RegistryDescriptors(s)|] == RegistryDescriptors(s)
    ensures r[|RegistryDescriptors(s)|..] == ModuleDescriptors(ms)
  {
    RegistryDescriptors(s) + ModuleDescriptors(ms)
  }

  // ---------------------------------------------------------------------------
  // Properties
  // ---------------------------------------------------------------------------

  /** A descriptor of one controller comes from an action whose target is that controller. */
  lemma ForControllerMembership(c: ControllerArgs, s: Storage, d: ActionMetadata)
    ensures d in ForController(c, s) <==> exists j :: 0 <= j < |s.actions| && s.actions[j].target == c.target && d == FromArgs(s.actions[j], s)
  {
    CollectMembership(s.actions, ActionOf(c, s), d);
  }

  /**
   * The registry half holds exactly the descriptors of actions whose target
   * is the target of some registered controller.
   */
  lemma {:induction false} RegistryMembership(cs: seq<ControllerArgs>, s: Storage, d: ActionMetadata)
    ensures d in FromControllers(cs, s) <==>
      exists i, j :: 0 <= i < |cs| && 0 <= j < |s.actions| && s.actions[j].target == cs[i].target && d == FromArgs(s.actions[j], s)
    decreases |cs|
  {
    if cs != [] {
      RegistryMembership(cs[1..], s, d);
      ForControllerMembership(cs[0], s, d);
      if d in FromControllers(cs[1..], s) {
        var i, j :| 0 <= i < |cs[1..]| && 0 <= j < |s.actions| && s.actions[j].target == cs[1..][i].target && d == FromArgs(s.actions[j], s);
        assert cs[i + 1] == cs[1..][i];
      }
      if exists i, j :: 0 <= i < |cs| && 0 <= j < |s.actions| && s.actions[j].target == cs[i].target && d == FromArgs(s.actions[j], s) {
        var i, j :| 0 <= i < |cs| && 0 <= j < |s.actions| && s.actions[j].target == cs[i].target && d == FromArgs(s.actions[j], s);
        if i > 0 {
          assert cs[1..][i - 1] == cs[i];
        }
      }
    }
  }

  /** Controllers registered later contribute their descriptors after all earlier controllers'. */
  lemma {:induction false} FromControllersConcat(a: seq<ControllerArgs>, b: seq<ControllerArgs>, s: Storage)
    ensures FromControllers(a + b, s) == FromControllers(a, s) + FromControllers(b, s)
    decreases |a|
  {
    if a == [] {
      assert a + b == b;
    } else {
      assert (a + b)[1..] == a[1..] + b;
      FromControllersConcat(a[1..], b, s);
    }
  }

  /** Each controller yields one descriptor per action registered on it. */
  lemma ForControllerOrder(c: ControllerArgs, s: Storage)
    ensures |ForController(c, s)| == Count(s.actions, ActionOf(c, s))
  {
    CollectLength(s.actions, ActionOf(c, s));
  }

  /**
   * An action registered later on a controller's class is described after
   * every earlier one; an action on another class adds nothing.
   */
  lemma ForControllerAppend(c: ControllerArgs, s: Storage, a: ActionArgs)
    ensures ForController(c, AddAction(s, a))
         == ForController(c, s) + (if a.target == c.target then [FromArgs(a, s)] else [])
  {
    var s' := AddAction(s, a);
    CollectConcat(s.actions, [a], ActionOf(c, s'));
    forall i | 0 <= i < |s.actions| ensures ActionOf(c, s')(s.actions[i]) == ActionOf(c, s)(s.actions[i]) {
      assert FromArgs(s.actions[i], s') == FromArgs(s.actions[i], s);
    }
    CollectCongruent(s.actions, ActionOf(c, s'), ActionOf(c, s));
    assert FromArgs(a, s') == FromArgs(a, s);
    assert Collect([a], ActionOf(c, s')) == (if a.target == c.target then [FromArgs(a, s)] else []);
  }

  /** Class and glob entries produce no descriptor. */
  lemma NoDescriptorFromClassesOrGlobs(es: seq<ControllerEntry>)
    requires forall i :: 0 <= i < |es| ==> !es[i].ControllerAction?
    ensures EntryDescriptors(es) == []
  {
    CollectNone(es, LiteralOf);
  }

  /** The `controllers` list of a module, empty when absent. */
  function Entries(m: GraphModule): seq<ControllerEntry> {
    m.controllers.GetOr([])
  }

  /** Entry `j` of module `i` is a literal action whose descriptor is `d`. */
  predicate LiteralAt(ms: seq<GraphModule>, i: int, j: int, d: ActionMetadata) {
    0 <= i < |ms| && 0 <= j < |Entries(ms[i])| && LiteralOf(Entries(ms[i])[j]) == Some(d)
  }

  /** A module-declared descriptor comes from a literal action entry of some module, and every such entry yields one. */
  lemma {:induction false} ModuleMembership(ms: seq<GraphModule>, d: ActionMetadata)
    ensures d in ModuleDescriptors(ms) <==> exists i, j :: LiteralAt(ms, i, j, d)
    decreases |ms|
  {
    if ms != [] {
      ModuleMembership(ms[1..], d);
      CollectMembership(Entries(ms[0]), LiteralOf, d);
      if d in ModuleDescriptors(ms[1..]) {
        var i, j :| LiteralAt(ms[1..], i, j, d);
        assert ms[i + 1] == ms[1..][i];
        assert LiteralAt(ms, i + 1, j, d);
      }
      if d in EntryDescriptors(Entries(ms[0])) {
        var j :| 0 <= j < |Entries(ms[0])| && LiteralOf(Entries(ms[0])[j]) == Some(d);
        assert LiteralAt(ms, 0, j, d);
      }
      if exists i, j :: LiteralAt(ms, i, j, d) {
        var i, j :| LiteralAt(ms, i, j, d);
        if i > 0 {
          assert ms[1..][i - 1] == ms[i];
          assert LiteralAt(ms[1..], i - 1, j, d);
        }
      }
    }
  }

  /** Modules listed later contribute after all earlier modules. */
  lemma {:induction false} ModuleDescriptorsConcat(a: seq<GraphModule>, b: seq<GraphModule>)
    ensures ModuleDescriptors(a + b) == ModuleDescriptors(a) + ModuleDescriptors(b)
    decreases |a|
  {
    if a == [] {
      assert a + b == b;
    } else {
      assert (a + b)[1..] == a[1..] + b;
      ModuleDescriptorsConcat(a[1..], b);
    }
  }
}

=== FILE: decorators.dfy ===
/**
 * The decorators. Each one appends exactly one fact to the registry and
 * fills in its defaults. `owner` stands for `object.constructor` of the
 * decorated member (the class for a method decorator) and `target` for the
 * decorated class of a class decorator.
 */
module Decorators {
  import opened Wrappers
  import opened Types
  import opened MetadataArgs

  /** The `{ name?, transaction? }` options object of the action decorators. */
  datatype ActionOptions = ActionOptions(name: Option<string>, transaction: Option<bool>)

  /** `(options && options.name) ? options.name : undefined` */
  function OptionName(options: Option<ActionOptions>): (r: Option<string>)
    ensures r.Some? <==> options.Some? && TruthyString(options.value.name)
    ensures r.Some? ==> r == options.value.name
  {
    if options.Some? && TruthyString(options.value.name) then options.value.name else None
  }

  /** True when the options say `transaction === true`. */
  predicate ExplicitlyOn(options: Option<ActionOptions>) {
    options.Some? && options.value.transaction == Some(true)
  }

  /** True when the options say `transaction === false`. */
  predicate ExplicitlyOff(options: Option<ActionOptions>) {
    options.Some? && options.value.transaction == Some(false)
  }

  /** `@Controller()` */
  function Controller(s: Storage, target: ClassRef): (r: Storage)
    ensures r.controllers == s.controllers + [ControllerArgs(target)]
    ensures r.(controllers := s.controllers) == s
  {
    AddController(s, ControllerArgs(target))
  }

  /** `@Query(options?)`: not transactional unless `transaction === true`. */
  function Query(s: Storage, options: Option<ActionOptions>, owner: ClassRef, methodName: string): (r: Storage)
    ensures |r.actions| == |s.actions| + 1 && r.actions[..|s.actions|] == s.actions
    ensures var a := r.actions[|s.actions|];
      && a.kind == ActionType.Query && a.target == owner && a.methodName == methodName
      && a.name == OptionName(options)
      && a.transaction == Some(ExplicitlyOn(options))
    ensures r.(actions := s.actions) == s
  {
    AddAction(s, ActionArgs(ActionType.Query, owner, methodName, OptionName(options),
                            Some(if ExplicitlyOn(options) then true else false)))
  }

  /** `@Mutation(options?)`: transactional unless `transaction === false`. */
  function Mutation(s: Storage, options: Option<ActionOptions>, owner: ClassRef, methodName: string): (r: Storage)
    ensures |r.actions| == |s.actions| + 1 && r.actions[..|s.actions|] == s.actions
    ensures var a := r.actions[|s.actions|];
      && a.kind == ActionType.Mutation && a.target == owner && a.methodName == methodName
      && a.name == OptionName(options)
      && a.transaction == Some(!ExplicitlyOff(options))
    ensures options.None? ==> r.actions[|s.actions|].transaction == Some(true)
    ensures r.(actions := s.actions) == s
  {
    AddAction(s, ActionArgs(ActionType.Mutation, owner, methodName, OptionName(options),
                            Some(if ExplicitlyOff(options) then false else true)))
  }

  /** `@Subscription(options?)`: not transactional unless `transaction === true`. */
  function Subscription(s: Storage, options: Option<ActionOptions>, owner: ClassRef, methodName: string): (r: Storage)
    ensures |r.actions| == |s.actions| + 1 && r.actions[..|s.actions|] == s.actions
    ensures var a := r.actions[|s.actions|];
      && a.kind == ActionType.Subscription && a.target == owner && a.methodName == methodName
      && a.name == OptionName(options)
      && a.transaction == Some(ExplicitlyOn(options))
    ensures r.(actions := s.actions) == s
  {
    AddAction(s, ActionArgs(ActionType.Subscription, owner, methodName, OptionName(options),
                            Some(if ExplicitlyOn(options) then true else false)))
  }

  /** `@Resolver(name)`: the name, class or string, is stored as given. */
  function Resolver(s: Storage, name: ResolverName, target: ClassRef): (r: Storage)
    ensures r.resolvers == s.resolvers + [ResolverArgs(target, name)]
    ensures r.(resolvers := s.resolvers) == s
  {
    AddResolver(s, ResolverArgs(target, name))
  }

  /**
   * The declared type of a method parameter, as emitted into the
   * `design:paramtypes` metadata: the `Array` constructor or another class.
   */
  datatype ParamType = ArrayType | OtherType(cls: ClassRef)

  /**
   * `paramTypes && paramTypes[0] === Array`: absent metadata yields
   * `undefined`; an empty list yields `false` (its first entry is undefined).
   */
  function IsMany(paramTypes: Option<seq<ParamType>>): (r: Option<bool>)
    ensures r.None? <==> paramTypes.None?
    ensures r == Some(true) <==> paramTypes.Some? && |paramTypes.value| > 0 && paramTypes.value[0] == ArrayType
  {
    match paramTypes
    case None => None
    case Some(ts) => Some(|ts| > 0 && ts[0] == ArrayType)
  }

  /**
   * `@Resolve(options?)`. The reflected parameter types of the decorated
   * method are an input here.
   */
  function Resolve(s: Storage, options: Option<Option<string>>, paramTypes: Option<seq<ParamType>>,
                   owner: ClassRef, methodName: string): (r: Storage)
    ensures |r.resolves| == |s.resolves| + 1 && r.resolves[..|s.resolves|] == s.resolves
    ensures var x := r.resolves[|s.resolves|];
      && x.target == owner && x.methodName == methodName
      && (x.name.Some? <==> options.Some? && TruthyString(options.value))
      && (x.name.Some? ==> x.name == options.value)
      && (x.dataLoader == Some(true) <==> paramTypes.Some? && |paramTypes.value| > 0 && paramTypes.value[0] == ArrayType)
      && (paramTypes.None? ==> x.dataLoader.None?)
    ensures r.(resolves := s.resolves) == s
  {
    var name := if options.Some? && TruthyString(options.value) then options.value else None;
    AddResolve(s, ResolveArgs(owner, methodName, name, IsMany(paramTypes)))
  }

  /** `@Authorized(roles?)`: an absent argument means the empty role list. */
  function Authorized(s: Storage, roles: Option<AuthorizeSpec>, owner: ClassRef, methodName: Option<string>): (r: Storage)
    ensures |r.authorizes| == |s.authorizes| + 1 && r.authorizes[..|s.authorizes|] == s.authorizes
    ensures var x := r.authorizes[|s.authorizes|];
      && x.target == owner && x.methodName == methodName
      && (roles.None? ==> x.roles == Roles([]))
      && (roles.Some? ==> x.roles == roles.value)
    ensures r.(authorizes := s.authorizes) == s
  {
    AddAuthorized(s, AuthorizedArgs(owner, methodName, if roles.Some? then roles.value else Roles([])))
  }

  /** `@ArgsValidator(validator)` */
  function ArgsValidator(s: Storage, validator: ClassRef, owner: ClassRef, methodName: string): (r: Storage)
    ensures r.validators == s.validators + [ValidatorArgs(owner, methodName, validator)]
    ensures r.(validators := s.validators) == s
  {
    AddValidator(s, ValidatorArgs(owner, methodName, validator))
  }

  /** Applying `@Controller()` twice to one class records it twice. */
  lemma ControllerNoDedup(s: Storage, target: ClassRef)
    ensures Controller(Controller(s, target), target).controllers
         == s.controllers + [ControllerArgs(target), ControllerArgs(target)]
  {
  }

  /** Repeated `@ArgsValidator` applications are kept, in application order. */
  lemma {:induction false} ValidatorsInApplicationOrder(s: Storage, owner: ClassRef, methodName: string, vs: seq<ClassRef>)
    ensures |ApplyValidators(s, vs, owner, methodName).validators| == |s.validators| + |vs|
    ensures forall i :: 0 <= i < |vs| ==>
      ApplyValidators(s, vs, owner, methodName).validators[|s.validators| + i] == ValidatorArgs(owner, methodName, vs[i])
    ensures ApplyValidators(s, vs, owner, methodName).validators[..|s.validators|] == s.validators
    decreases |vs|
  {
    if vs != [] {
      var s' := ArgsValidator(s, vs[0], owner, methodName);
      ValidatorsInApplicationOrder(s', owner, methodName, vs[1..]);
    }
  }

  /** Applies `@ArgsValidator(v)` for each `v` of `vs`, first to last. */
  function ApplyValidators(s: Storage, vs: seq<ClassRef>, owner: ClassRef, methodName: string): Storage
    decreases |vs|
  {
    if vs == [] then s else ApplyValidators(ArgsValidator(s, vs[0], owner, methodName), vs[1..], owner, methodName)
  }
}

=== FILE: executor.dfy ===
/**
 * The action executor: a linear pipeline of five steps run for one field
 * invocation. Promises are flattened: every call into user code completes
 * with a value or an error before the next one starts. User code (the
 * setup hook, the authorization checker, role checkers, validators and the
 * target method) is supplied through `Env` as functions.
 */
module Executor {
  import opened Wrappers
  import opened Types
  import opened Metadata

  /** Container tokens: the container class itself, `EntityManager`, or any other class. */
  datatype Token = ContainerToken | EntityManagerToken | ClassToken(cls: ClassRef)

  /** The connection's own entity manager, or the one a transaction hands to its callback. */
  datatype Manager = AmbientManager | TransactionManager

  /** What the container holds for a token. */
  datatype Entry =
    | SelfEntry
    | ManagerEntry(manager: Manager)
    | RepositoryEntry(repository: ClassRef, manager: Manager)
    | ServiceEntry(id: nat)

  /** The per-request dependency-injection container. */
  type Container = map<Token, Entry>

  /** The descriptor being executed: a controller action or a field resolver. */
  datatype Descriptor = ActionDescriptor(action: ActionMetadata) | ResolveDescriptor(resolve: ResolveMetadata)

  function Target(d: Descriptor): ClassRef {
    match d
    case ActionDescriptor(a) => a.target
    case ResolveDescriptor(r) => r.target
  }

  function MethodName(d: Descriptor): string {
    match d
    case ActionDescriptor(a) => a.methodName
    case ResolveDescriptor(r) => r.methodName
  }

  function Rules(d: Descriptor): seq<AuthorizeSpec> {
    match d
    case ActionDescriptor(a) => a.authorizes
    case ResolveDescriptor(r) => r.authorizes
  }

  function Validators(d: Descriptor): seq<ClassRef> {
    match d
    case ActionDescriptor(a) => a.validators
    case ResolveDescriptor(r) => r.validators
  }

  /**
   * `metadata.transaction` read through the action-metadata type: resolve
   * descriptors have no such field, so they never ask for a transaction.
   */
  predicate WantsTransaction(d: Descriptor) {
    d.ActionDescriptor? && d.action.transaction
  }

  /** One invocation: the descriptor plus the four GraphQL resolver arguments. */
  datatype Action<V> = Action(metadata: Descriptor, obj: V, args: V, context: V, info: V)

  /** The argument list the target method receives. */
  datatype Call<V> = ArgsCall(args: V, context: V, info: V) | ObjCall(obj: V, args: V, context: V, info: V)

  /** The database connection, when one was configured. */
  datatype Connection = Connection(storeType: string)

  /** Everything the executor reads from the schema builder and user code. */
  datatype Env<!V> = Env(
    connection: Option<Connection>,
    repositories: seq<ClassRef>,
    setupContainer: Option<(Container, Action<V>) -> Result<Container, Error>>,
    authorizationChecker: Option<(seq<string>, Action<V>) -> Result<V, Error>>,
    check: (ClassRef, Container, Action<V>) -> Result<V, Error>,
    validate: (ClassRef, Container, V) -> Result<V, Error>,
    invoke: (ClassRef, string, Call<V>, Container) -> Result<V, Error>)

  /** Observable steps of one run, in the order they happen. */
  datatype Event<V> =
    | TransactionOpened
    | SetupContainerCalled
    | AuthorizationChecked(rule: AuthorizeSpec)
    | Validated(validator: ClassRef, args: V)
    | Invoked(target: ClassRef, methodName: string, call: Call<V>)
    | Committed
    | RolledBack

  /** The result of a run, its trace, and the container as the run left it. */
  datatype Run<V> = Run(outcome: Result<V, Error>, trace: seq<Event<V>>, container: Container)

  // ---------------------------------------------------------------------------
  // Step 1: transaction decision
  // ---------------------------------------------------------------------------

  /** A transaction is opened iff there is a connection, the descriptor asks for one, and the store is not MongoDB. */
  predicate OpensTransaction<V>(env: Env<V>, d: Descriptor) {
    env.connection.Some? && WantsTransaction(d) && env.connection.value.storeType != "mongodb"
  }

  /** The entity manager handed to step 2. */
  function ManagerFor<V>(env: Env<V>, d: Descriptor): (m: Option<Manager>)
    ensures m.None? <==> env.connection.None?
    ensures m == Some(TransactionManager) <==> OpensTransaction(env, d)
  {
    if env.connection.None? then None
    else if OpensTransaction(env, d) then Some(TransactionManager)
    else Some(AmbientManager)
  }

  /**
   * Step 1. Inside a transaction the callback's outcome decides: success
   * commits, failure rolls back; both happen before the result is returned.
   */
  function Step1<V>(env: Env<V>, action: Action<V>, c: Container): (r: Run<V>)
    ensures var inner := Step2(env, action, c, ManagerFor(env, action.metadata));
      r.outcome == inner.outcome && r.container == inner.container
    ensures OpensTransaction(env, action.metadata) ==>
      && |r.trace| >= 2 && r.trace[0] == TransactionOpened
      && r.trace[|r.trace| - 1] == (if r.outcome.Success? then Committed else RolledBack)
    ensures !OpensTransaction(env, action.metadata) ==> r.trace == Step2(env, action, c, ManagerFor(env, action.metadata)).trace
  {
    var inner := Step2(env, action, c, ManagerFor(env, action.metadata));
    if OpensTransaction(env, action.metadata) then
      Run(inner.outcome,
          [TransactionOpened] + inner.trace + [if inner.outcome.Success? then Committed else RolledBack],
          inner.container)
    else inner
  }

  /** `executeControllerAction` */
  function ExecuteControllerAction<V>(env: Env<V>, action: Action<V>, c: Container): Run<V> {
    Step1(env, action, c)
  }

  /** `executeResolver`: the same pipeline, entered at the same step. */
  function ExecuteResolver<V>(env: Env<V>, action: Action<V>, c: Container): (r: Run<V>)
    ensures r == ExecuteControllerAction(env, action, c)
  {
    Step1(env, action, c)
  }

  // ---------------------------------------------------------------------------
  // Step 2: container setup
  // ---------------------------------------------------------------------------

  /** The tokens of the custom-repository classes. */
  function RepoTokens(repos: seq<ClassRef>): set<Token> {
    set x | x in repos :: ClassToken(x)
  }

  /** A token the step-2 registrations never write. */
  predicate Untouched(t: Token, repos: seq<ClassRef>) {
    t != ContainerToken && t != EntityManagerToken && t !in RepoTokens(repos)
  }

  /** Registers one repository per custom-repository class, bound to `m`. */
  function RegisterRepositories(c: Container, repos: seq<ClassRef>, m: Manager): (r: Container)
    ensures r.Keys == c.Keys + RepoTokens(repos)
    ensures forall x :: x in repos ==> r[ClassToken(x)] == RepositoryEntry(x, m)
    ensures forall t :: t in c && t !in RepoTokens(repos) ==> r[t] == c[t]
    decreases |repos|
  {
    if repos == [] then c
    else RegisterRepositories(c[ClassToken(repos[0]) := RepositoryEntry(repos[0], m)], repos[1..], m)
  }

  /**
   * The registrations of step 2: the container under its own token, and,
   * when a manager is given, the manager and every custom repository of it.
   */
  function Register(c: Container, manager: Option<Manager>, repos: seq<ClassRef>): (r: Container)
    ensures ContainerToken in r && r[ContainerToken] == SelfEntry
    ensures manager.None? ==> r == c[ContainerToken := SelfEntry]
    ensures manager.Some? ==>
      && r.Keys == c.Keys + {ContainerToken, EntityManagerToken} + RepoTokens(repos)
      && r[EntityManagerToken] == ManagerEntry(manager.value)
      && (forall x :: x in repos ==> r[ClassToken(x)] == RepositoryEntry(x, manager.value))
    ensures forall t :: t in c && Untouched(t, repos) ==> r[t] == c[t]
  {
    var c1 := c[ContainerToken := SelfEntry];
    match manager
    case None => c1
    case Some(m) => RegisterRepositories(c1[EntityManagerToken := ManagerEntry(m)], repos, m)
  }

  /** The setup hook, when configured, given the registered container; it may replace or extend it. */
  function Setup<V>(env: Env<V>, action: Action<V>, c: Container): (r: Result<Container, Error>)
    ensures env.setupContainer.None? ==> r == Success(c)
  {
    match env.setupContainer
    case None => Success(c)
    case Some(setup) => setup(c, action)
  }

  /** The events step 2 itself contributes. */
  function SetupEvents<V>(env: Env<V>): (t: seq<Event<V>>)
    ensures |t| <= 1 && (t != [] <==> env.setupContainer.Some?)
    ensures forall i :: 0 <= i < |t| ==> t[i] == SetupContainerCalled
  {
    if env.setupContainer.Some? then [SetupContainerCalled] else []
  }

  /** Step 2: registrations, then the setup hook when configured. */
  function Step2<V>(env: Env<V>, action: Action<V>, c: Container, manager: Option<Manager>): (r: Run<V>)
    ensures var p := Setup(env, action, Register(c, manager, env.repositories));
      p.Failure? ==> r.outcome == Failure(p.error) && forall i :: 0 <= i < |r.trace| ==> r.trace[i] == SetupContainerCalled
    ensures var p := Setup(env, action, Register(c, manager, env.repositories));
      p.Success? ==> r.outcome == Step3(env, action, p.value).outcome && r.container == p.value
  {
    var c1 := Register(c, manager, env.repositories);
    match Setup(env, action, c1)
    case Failure(e) => Run(Failure(e), SetupEvents(env), c1)
    case Success(c2) =>
      var r := Step3(env, action, c2);
      Run(r.outcome, SetupEvents(env) + r.trace, r.container)
  }

  // ---------------------------------------------------------------------------
  // Step 3: authorization
  // ---------------------------------------------------------------------------

  /**
   * One rule: a role list goes to the global checker (calling it when it is
   * not configured throws), a class is resolved from the container and its
   * `check` is called.
   */
  function CheckRule<V>(env: Env<V>, action: Action<V>, c: Container, rule: AuthorizeSpec): (r: Result<V, Error>)
    ensures rule.Roles? && env.authorizationChecker.None? ==> r.Failure?
    ensures rule.Roles? && env.authorizationChecker.Some? ==> r == env.authorizationChecker.value(rule.roles, action)
    ensures rule.Checker? ==> r == env.check(rule.checker, c, action)
  {
    match rule
    case Roles(roles) =>
      (match env.authorizationChecker
       case None => Failure(Error("authorizationChecker is not a function"))
       case Some(f) => f(roles, action))
    case Checker(cls) => env.check(cls, c, action)
  }

  /**
   * Runs `f` on each element in order, recording `ev` of every element it
   * runs on; returned values are dropped and the first failure stops.
   */
  function RunInOrder<V, X>(xs: seq<X>, f: X -> Result<V, Error>, ev: X -> Event<V>): (run: (Result<(), Error>, seq<Event<V>>))
    ensures |run.1| <= |xs|
    ensures forall i :: 0 <= i < |run.1| ==> run.1[i] == ev(xs[i])
    ensures forall i :: 0 <= i < |run.1| - 1 ==> f(xs[i]).Success?
    ensures run.0.Success? ==> |run.1| == |xs| && forall i :: 0 <= i < |xs| ==> f(xs[i]).Success?
    ensures run.0.Failure? ==> |run.1| > 0 && f(xs[|run.1| - 1]) == Failure(run.0.error)
    decreases |xs|
  {
    if xs == [] then (Success(()), [])
    else
      match f(xs[0])
      case Failure(e) => (Failure(e), [ev(xs[0])])
      case Success(_) =>
        var tail := RunInOrder(xs[1..], f, ev);
        var t := [ev(xs[0])] + tail.1;
        assert forall i :: 0 < i < |t| ==> t[i] == tail.1[i - 1] && xs[i] == xs[1..][i - 1];
        (tail.0, t)
  }

  /** The rule check of step 3 for one action and container. */
  function RuleCheck<V>(env: Env<V>, action: Action<V>, c: Container): AuthorizeSpec -> Result<V, Error> {
    (rule: AuthorizeSpec) => CheckRule(env, action, c, rule)
  }

  function RuleEvent<V>(action: Action<V>): AuthorizeSpec -> Event<V> {
    (rule: AuthorizeSpec) => AuthorizationChecked(rule)
  }

  /** Checks the rules in order. */
  function Authorize<V>(env: Env<V>, action: Action<V>, c: Container): (Result<(), Error>, seq<Event<V>>) {
    RunInOrder(Rules(action.metadata), RuleCheck(env, action, c), RuleEvent(action))
  }

  /** Step 3 */
  function Step3<V>(env: Env<V>, action: Action<V>, c: Container): (r: Run<V>)
    ensures r.container == c
    ensures var a := Authorize(env, action, c).0;
      a.Failure? ==> r.outcome == Failure(a.error) && forall i :: 0 <= i < |r.trace| ==> r.trace[i].AuthorizationChecked?
    ensures Authorize(env, action, c).0.Success? ==> r.outcome == Step4(env, action, c).outcome
  {
    var (r, t) := Authorize(env, action, c);
    match r
    case Failure(e) => Run(Failure(e), t, c)
    case Success(_) =>
      var r4 := Step4(env, action, c);
      Run(r4.outcome, t + r4.trace, r4.container)
  }

  // ---------------------------------------------------------------------------
  // Step 4: validation
  // ---------------------------------------------------------------------------

  /** The validation of step 4 on the call arguments. */
  function ValidatorCheck<V>(env: Env<V>, c: Container, args: V): ClassRef -> Result<V, Error> {
    (v: ClassRef) => env.validate(v, c, args)
  }

  function ValidatorEvent<V>(args: V): ClassRef -> Event<V> {
    (v: ClassRef) => Validated(v, args)
  }

  /** Runs the validators in order on the call arguments. */
  function ValidateAll<V>(env: Env<V>, action: Action<V>, c: Container): (Result<(), Error>, seq<Event<V>>) {
    RunInOrder(Validators(action.metadata), ValidatorCheck(env, c, action.args), ValidatorEvent(action.args))
  }

  /** Step 4 */
  function Step4<V>(env: Env<V>, action: Action<V>, c: Container): (r: Run<V>)
    ensures r.container == c
    ensures r.trace != [] && (r.trace[|r.trace| - 1].Invoked? <==> ValidateAll(env, action, c).0.Success?)
    ensures var v := ValidateAll(env, action, c).0; v.Failure? ==> r.outcome == Failure(v.error)
    ensures ValidateAll(env, action, c).0.Success? ==> r.outcome == Step5(env, action, c).outcome
  {
    var (r, t) := ValidateAll(env, action, c);
    match r
    case Failure(e) => Run(Failure(e), t, c)
    case Success(_) =>
      var r5 := Step5(env, action, c);
      Run(r5.outcome, t + r5.trace, r5.container)
  }

  // ---------------------------------------------------------------------------
  // Step 5: invocation
  // ---------------------------------------------------------------------------

  /** Queries and mutations receive `(args, context, info)`; subscriptions and field resolvers also get `obj` first. */
  function CallFor<V>(action: Action<V>): (call: Call<V>)
    ensures call.ArgsCall? <==> action.metadata.ActionDescriptor? && (action.metadata.action.kind.Query? || action.metadata.action.kind.Mutation?)
    ensures call.ArgsCall? ==> call == ArgsCall(action.args, action.context, action.info)
    ensures call.ObjCall? ==> call == ObjCall(action.obj, action.args, action.context, action.info)
  {
    if action.metadata.ActionDescriptor? && (action.metadata.action.kind.Query? || action.metadata.action.kind.Mutation?) then
      ArgsCall(action.args, action.context, action.info)
    else
      ObjCall(action.obj, action.args, action.context, action.info)
  }

  /** Step 5: the method's result is returned as it is. */
  function Step5<V>(env: Env<V>, action: Action<V>, c: Container): (r: Run<V>)
    ensures r.container == c
    ensures |r.trace| == 1 && r.trace[0].Invoked? && r.trace[0].call == CallFor(action)
    ensures r.outcome == env.invoke(r.trace[0].target, r.trace[0].methodName, CallFor(action), c)
    ensures r.trace[0].target == Target(action.metadata) && r.trace[0].methodName == MethodName(action.metadata)
  {
    var call := CallFor(action);
    Run(env.invoke(Target(action.metadata), MethodName(action.metadata), call, c),
        [Invoked(Target(action.metadata), MethodName(action.metadata), call)], c)
  }
}

=== FILE: executor_props.dfy ===
/**
 * What one run of the executor guarantees: when a transaction is opened and
 * how it ends, the order of the stages, which failure stops the pipeline,
 * and what the target method receives.
 */
module ExecutorProps {
  import opened Wrappers
  import opened Types
  import opened Metadata
  import opened Executor

  // ---------------------------------------------------------------------------
  // Ordered checks, first failure stops
  // ---------------------------------------------------------------------------

  /** Every check succeeds. */
  ghost predicate AllPass<V, X>(xs: seq<X>, f: X -> Result<V, Error>) {
    forall k :: 0 <= k < |xs| ==> f(xs[k]).Success?
  }

  /** Check `k` is the first one that fails. */
  ghost predicate FirstFailure<V, X>(xs: seq<X>, f: X -> Result<V, Error>, k: int) {
    0 <= k < |xs| && f(xs[k]).Failure? && forall i :: 0 <= i < k ==> f(xs[i]).Success?
  }

  /** `t` records exactly the first `n` elements. */
  ghost predicate Recorded<V, X>(xs: seq<X>, ev: X -> Event<V>, t: seq<Event<V>>, n: int) {
    0 <= n <= |xs| && |t| == n && forall i :: 0 <= i < n ==> t[i] == ev(xs[i])
  }

  /** The run stopped at check `k` with its error, having recorded checks `0..k`. */
  ghost predicate StoppedAt<V, X>(xs: seq<X>, f: X -> Result<V, Error>, ev: X -> Event<V>,
                                  r: (Result<(), Error>, seq<Event<V>>), k: int) {
    FirstFailure(xs, f, k) && r.0 == Failure(f(xs[k]).error) && Recorded(xs, ev, r.1, k + 1)
  }

  /**
   * The ordered run succeeds iff every check succeeds, whatever value the
   * checks return; it then records every element. Otherwise it stops at
   * the first failing check with that check's error.
   */
  lemma {:induction false} RunInOrderSpec<V, X>(xs: seq<X>, f: X -> Result<V, Error>, ev: X -> Event<V>)
    ensures RunInOrder(xs, f, ev).0.Success? <==> AllPass(xs, f)
    ensures AllPass(xs, f) ==> Recorded(xs, ev, RunInOrder(xs, f, ev).1, |xs|)
    ensures !AllPass(xs, f) ==> exists k :: StoppedAt(xs, f, ev, RunInOrder(xs, f, ev), k)
    decreases |xs|
  {
    if xs != [] {
      var tail := xs[1..];
      RunInOrderSpec(tail, f, ev);
      var r := RunInOrder(xs, f, ev);
      var r' := RunInOrder(tail, f, ev);
      if f(xs[0]).Failure? {
        assert StoppedAt(xs, f, ev, r, 0);
      } else {
        assert r == (r'.0, [ev(xs[0])] + r'.1);
        assert AllPass(xs, f) <==> AllPass(tail, f) by {
          if AllPass(tail, f) {
            forall k | 0 <= k < |xs| ensures f(xs[k]).Success? {
              if k > 0 { assert xs[k] == tail[k - 1]; }
            }
          }
          if AllPass(xs, f) {
            forall k | 0 <= k < |tail| ensures f(tail[k]).Success? {
              assert tail[k] == xs[k + 1];
            }
          }
        }
        if AllPass(tail, f) {
          forall i | 0 <= i < |xs| ensures r.1[i] == ev(xs[i]) {
            if i > 0 { assert xs[i] == tail[i - 1]; }
          }
        } else {
          var k :| StoppedAt(tail, f, ev, r', k);
          forall i | 0 <= i < k + 1 ensures f(xs[i]).Success? {
            if i > 0 { assert xs[i] == tail[i - 1]; }
          }
          forall i | 0 <= i < k + 2 ensures r.1[i] == ev(xs[i]) {
            if i > 0 { assert xs[i] == tail[i - 1]; }
          }
          assert xs[k + 1] == tail[k];
          assert StoppedAt(xs, f, ev, r, k + 1);
        }
      }
    }
  }

  // ---------------------------------------------------------------------------
  // Stages
  // ---------------------------------------------------------------------------

  /** The pipeline stage an event belongs to. */
  function Stage<V>(e: Event<V>): nat {
    match e
    case TransactionOpened => 1
    case SetupContainerCalled => 2
    case AuthorizationChecked(_) => 3
    case Validated(_, _) => 4
    case Invoked(_, _, _) => 5
    case Committed => 6
    case RolledBack => 6
  }

  /** Stages never go backwards. */
  ghost predicate Ordered<V>(t: seq<Event<V>>) {
    forall i, j :: 0 <= i < j < |t| ==> Stage(t[i]) <= Stage(t[j])
  }

  /** Every event lies in stages `lo..hi`. */
  ghost predicate Within<V>(t: seq<Event<V>>, lo: nat, hi: nat) {
    forall i :: 0 <= i < |t| ==> lo <= Stage(t[i]) <= hi
  }

  /** Some event of stage `s` happened. */
  ghost predicate HasStage<V>(t: seq<Event<V>>, s: nat) {
    exists i :: 0 <= i < |t| && Stage(t[i]) == s
  }

  lemma OrderedConcat<V>(a: seq<Event<V>>, b: seq<Event<V>>, lo: nat, mid: nat, hi: nat)
    requires lo <= mid <= hi
    requires Ordered(a) && Ordered(b) && Within(a, lo, mid) && Within(b, mid, hi)
    ensures Ordered(a + b) && Within(a + b, lo, hi)
  {
    forall i | 0 <= i < |a + b| ensures lo <= Stage((a + b)[i]) <= hi {
      if i < |a| { assert (a + b)[i] == a[i]; } else { assert (a + b)[i] == b[i - |a|]; }
    }
    forall i, j | 0 <= i < j < |a + b| ensures Stage((a + b)[i]) <= Stage((a + b)[j]) {
      if j < |a| {
        assert (a + b)[i] == a[i] && (a + b)[j] == a[j];
      } else if i < |a| {
        assert (a + b)[i] == a[i] && (a + b)[j] == b[j - |a|];
      } else {
        assert (a + b)[i] == b[i - |a|] && (a + b)[j] == b[j - |a|];
      }
    }
  }

  lemma HasStageConcat<V>(a: seq<Event<V>>, b: seq<Event<V>>, s: nat)
    ensures HasStage(a + b, s) <==> HasStage(a, s) || HasStage(b, s)
  {
    if HasStage(a + b, s) {
      var i :| 0 <= i < |a + b| && Stage((a + b)[i]) == s;
      if i >= |a| { assert b[i - |a|] == (a + b)[i]; }
    }
    if HasStage(b, s) {
      var i :| 0 <= i < |b| && Stage(b[i]) == s;
      assert (a + b)[i + |a|] == b[i];
    }
    if HasStage(a, s) {
      var i :| 0 <= i < |a| && Stage(a[i]) == s;
      assert (a + b)[i] == a[i];
    }
  }

  lemma WithinExcludes<V>(t: seq<Event<V>>, lo: nat, hi: nat, s: nat)
    requires Within(t, lo, hi) && (s < lo || s > hi)
    ensures !HasStage(t, s)
  {
  }

  // ---------------------------------------------------------------------------
  // Steps 3 to 5 on a fixed container
  // ---------------------------------------------------------------------------

  /**
   * A role list is decided by the global checker alone, whatever the
   * container and the class checks; a checker class is decided by its own
   * `check` alone, whatever the global checker.
   */
  lemma CheckRuleSources<V>(env: Env<V>, action: Action<V>, c: Container, rule: AuthorizeSpec,
                            c': Container, check': (ClassRef, Container, Action<V>) -> Result<V, Error>,
                            global': Option<(seq<string>, Action<V>) -> Result<V, Error>>)
    ensures rule.Roles? ==> CheckRule(env, action, c, rule) == CheckRule(env.(check := check'), action, c', rule)
    ensures rule.Checker? ==> CheckRule(env, action, c, rule) == CheckRule(env.(authorizationChecker := global'), action, c, rule)
  {
  }

  /** Every rule of the descriptor lets the action through. */
  ghost predicate RulesPass<V>(env: Env<V>, action: Action<V>, c: Container) {
    AllPass(Rules(action.metadata), RuleCheck(env, action, c))
  }

  /** Every validator of the descriptor accepts the arguments. */
  ghost predicate ValidatorsPass<V>(env: Env<V>, action: Action<V>, c: Container) {
    AllPass(Validators(action.metadata), ValidatorCheck(env, c, action.args))
  }

  /** The arguments validators are run on are the call's `args`. */
  ghost predicate ValidatesArgs<V>(t: seq<Event<V>>, args: V) {
    forall i :: 0 <= i < |t| && t[i].Validated? ==> t[i].args == args
  }

  /** The event recording the call of the target method. */
  function InvokedEvent<V>(action: Action<V>): Event<V> {
    Invoked(Target(action.metadata), MethodName(action.metadata), CallFor(action))
  }

  lemma Step5Spec<V>(env: Env<V>, action: Action<V>, c: Container)
    ensures Step5(env, action, c).trace == [InvokedEvent(action)]
    ensures Step5(env, action, c).outcome == env.invoke(Target(action.metadata), MethodName(action.metadata), CallFor(action), c)
    ensures Step5(env, action, c).container == c
  {
  }

  /** The events of validation all lie in stage 4 and carry the call's `args`. */
  lemma ValidationEvents<V>(env: Env<V>, action: Action<V>, c: Container)
    ensures var t := ValidateAll(env, action, c).1;
      Ordered(t) && Within(t, 4, 4) && ValidatesArgs(t, action.args)
  {
    var vs := Validators(action.metadata);
    var t := ValidateAll(env, action, c).1;
    assert forall i :: 0 <= i < |t| ==> t[i] == Validated(vs[i], action.args);
  }

  /** Validation's events, then the method's, in stage order. */
  lemma Step4Trace<V>(env: Env<V>, action: Action<V>, c: Container)
    ensures var r := Step4(env, action, c);
      Ordered(r.trace) && Within(r.trace, 4, 5) && ValidatesArgs(r.trace, action.args)
  {
    var v := ValidateAll(env, action, c);
    var r := Step4(env, action, c);
    ValidationEvents(env, action, c);
    if v.0.Success? {
      assert r.trace == v.1 + [InvokedEvent(action)];
      OrderedConcat(v.1, [InvokedEvent(action)], 4, 4, 5);
    } else {
      assert r.trace == v.1;
    }
  }

  /** The method is reached iff every validator accepts; otherwise the first rejection is the outcome. */
  lemma Step4Outcome<V>(env: Env<V>, action: Action<V>, c: Container)
    ensures var r := Step4(env, action, c);
      && (HasStage(r.trace, 5) <==> ValidatorsPass(env, action, c))
      && (ValidatorsPass(env, action, c) ==>
            r.outcome == env.invoke(Target(action.metadata), MethodName(action.metadata), CallFor(action), c)
            && InvokedEvent(action) in r.trace)
      && (!ValidatorsPass(env, action, c) ==>
            exists k :: FirstFailure(Validators(action.metadata), ValidatorCheck(env, c, action.args), k)
                        && r.outcome == Failure(ValidatorCheck(env, c, action.args)(Validators(action.metadata)[k]).error))
  {
    var vs, f, ev := Validators(action.metadata), ValidatorCheck(env, c, action.args), ValidatorEvent<V>(action.args);
    RunInOrderSpec(vs, f, ev);
    ValidationEvents(env, action, c);
    var r := Step4(env, action, c);
    var v := RunInOrder(vs, f, ev);
    if AllPass(vs, f) {
      assert r.trace == v.1 + [InvokedEvent(action)];
      assert r.trace[|v.1|] == InvokedEvent(action);
    } else {
      var k :| StoppedAt(vs, f, ev, v, k);
      assert r.trace == v.1;
      WithinExcludes(v.1, 4, 4, 5);
    }
  }

  /**
   * Validation: the method is reached iff every validator accepts, and then
   * its result is the outcome; otherwise the first rejection is.
   */
  lemma Step4Spec<V>(env: Env<V>, action: Action<V>, c: Container)
    ensures var r := Step4(env, action, c);
      && Ordered(r.trace) && Within(r.trace, 4, 5) && r.container == c
      && ValidatesArgs(r.trace, action.args)
      && (HasStage(r.trace, 5) <==> ValidatorsPass(env, action, c))
      && (ValidatorsPass(env, action, c) ==>
            r.outcome == env.invoke(Target(action.metadata), MethodName(action.metadata), CallFor(action), c)
            && InvokedEvent(action) in r.trace)
      && (!ValidatorsPass(env, action, c) ==>
            exists k :: FirstFailure(Validators(action.metadata), ValidatorCheck(env, c, action.args), k)
                        && r.outcome == Failure(ValidatorCheck(env, c, action.args)(Validators(action.metadata)[k]).error))
  {
    Step4Trace(env, action, c);
    Step4Outcome(env, action, c);
  }

  /** The events of authorization all lie in stage 3. */
  lemma AuthorizationEvents<V>(env: Env<V>, action: Action<V>, c: Container)
    ensures var t := Authorize(env, action, c).1;
      Ordered(t) && Within(t, 3, 3) && ValidatesArgs(t, action.args)
  {
    var rules := Rules(action.metadata);
    var t := Authorize(env, action, c).1;
    assert forall i :: 0 <= i < |t| ==> t[i] == AuthorizationChecked(rules[i]);
  }

  /** Authorization's events, then those of steps 4 and 5, in stage order. */
  lemma Step3Trace<V>(env: Env<V>, action: Action<V>, c: Container)
    ensures var r := Step3(env, action, c);
      Ordered(r.trace) && Within(r.trace, 3, 5) && ValidatesArgs(r.trace, action.args)
  {
    var a := Authorize(env, action, c);
    var r := Step3(env, action, c);
    AuthorizationEvents(env, action, c);
    if a.0.Success? {
      var r4 := Step4(env, action, c);
      Step4Trace(env, action, c);
      assert r.trace == a.1 + r4.trace;
      OrderedConcat(a.1, r4.trace, 3, 3, 5);
      forall i | 0 <= i < |r.trace| && r.trace[i].Validated? ensures r.trace[i].args == action.args {
        assert r.trace[i] == r4.trace[i - |a.1|];
      }
    } else {
      assert r.trace == a.1;
    }
  }

  /** Validation is reached only if every rule passes; otherwise the first failing rule's error is the outcome. */
  lemma Step3Outcome<V>(env: Env<V>, action: Action<V>, c: Container)
    ensures var r := Step3(env, action, c);
      && (HasStage(r.trace, 4) ==> RulesPass(env, action, c))
      && (HasStage(r.trace, 5) <==> RulesPass(env, action, c) && ValidatorsPass(env, action, c))
      && (RulesPass(env, action, c) ==> r.outcome == Step4(env, action, c).outcome)
      && (!RulesPass(env, action, c) ==>
            exists k :: FirstFailure(Rules(action.metadata), RuleCheck(env, action, c), k)
                        && r.outcome == Failure(CheckRule(env, action, c, Rules(action.metadata)[k]).error))
  {
    var rules, f, ev := Rules(action.metadata), RuleCheck(env, action, c), RuleEvent(action);
    RunInOrderSpec(rules, f, ev);
    AuthorizationEvents(env, action, c);
    var r := Step3(env, action, c);
    var a := RunInOrder(rules, f, ev);
    if AllPass(rules, f) {
      var r4 := Step4(env, action, c);
      Step4Outcome(env, action, c);
      assert r.trace == a.1 + r4.trace;
      HasStageConcat(a.1, r4.trace, 4);
      HasStageConcat(a.1, r4.trace, 5);
      WithinExcludes(a.1, 3, 3, 4);
      WithinExcludes(a.1, 3, 3, 5);
    } else {
      var k :| StoppedAt(rules, f, ev, a, k);
      assert r.trace == a.1;
      WithinExcludes(a.1, 3, 3, 4);
      WithinExcludes(a.1, 3, 3, 5);
    }
  }

  /**
   * Authorization: a rule failure stops the run before any validator or the
   * method; the values the rules return play no part.
   */
  lemma Step3Spec<V>(env: Env<V>, action: Action<V>, c: Container)
    ensures var r := Step3(env, action, c);
      && Ordered(r.trace) && Within(r.trace, 3, 5) && r.container == c
      && ValidatesArgs(r.trace, action.args)
      && (HasStage(r.trace, 4) ==> RulesPass(env, action, c))
      && (HasStage(r.trace, 5) <==> RulesPass(env, action, c) && ValidatorsPass(env, action, c))
      && (RulesPass(env, action, c) ==> r.outcome == Step4(env, action, c).outcome)
      && (!RulesPass(env, action, c) ==>
            exists k :: FirstFailure(Rules(action.metadata), RuleCheck(env, action, c), k)
                        && r.outcome == Failure(CheckRule(env, action, c, Rules(action.metadata)[k]).error))
  {
    Step3Trace(env, action, c);
    Step3Outcome(env, action, c);
  }

  // ---------------------------------------------------------------------------
  // Step 2: the container the later steps see
  // ---------------------------------------------------------------------------

  /** The container after the registrations and the setup hook, or the hook's error. */
  ghost function PreparedWith<V>(env: Env<V>, action: Action<V>, c: Container, manager: Option<Manager>): Result<Container, Error> {
    Setup(env, action, Register(c, manager, env.repositories))
  }

  /** Step 2's own event marks stage 2 exactly when a setup hook is configured. */
  lemma SetupStage<V>(env: Env<V>)
    ensures HasStage(SetupEvents(env), 2) <==> env.setupContainer.Some?
  {
    if env.setupContainer.Some? {
      assert Stage(SetupEvents(env)[0]) == 2;
    }
  }

  /**
   * Step 2 hands the prepared container to steps 3 to 5; a failing setup
   * hook ends the run with its error before any rule is checked.
   */
  lemma Step2Spec<V>(env: Env<V>, action: Action<V>, c: Container, manager: Option<Manager>)
    ensures var r := Step2(env, action, c, manager);
      Ordered(r.trace) && Within(r.trace, 2, 5) && ValidatesArgs(r.trace, action.args)
    ensures HasStage(Step2(env, action, c, manager).trace, 2) <==> env.setupContainer.Some?
    ensures var r := Step2(env, action, c, manager); var p := PreparedWith(env, action, c, manager);
      p.Failure? ==> r.outcome == Failure(p.error) && r.trace == SetupEvents(env)
    ensures var r := Step2(env, action, c, manager); var p := PreparedWith(env, action, c, manager);
      p.Success? ==>
        && r.trace == SetupEvents(env) + Step3(env, action, p.value).trace
        && r.outcome == Step3(env, action, p.value).outcome
        && r.container == p.value
  {
    var r := Step2(env, action, c, manager);
    var p := PreparedWith(env, action, c, manager);
    SetupStage(env);
    if p.Success? {
      Step3Spec(env, action, p.value);
      var r3 := Step3(env, action, p.value);
      assert r.trace == SetupEvents(env) + r3.trace;
      OrderedConcat(SetupEvents(env), r3.trace, 2, 2, 5);
      HasStageConcat(SetupEvents(env), r3.trace, 2);
      WithinExcludes(r3.trace, 3, 5, 2);
      forall i | 0 <= i < |r.trace| && r.trace[i].Validated? ensures r.trace[i].args == action.args {
        assert r.trace[i] == r3.trace[i - |SetupEvents(env)|];
      }
    } else {
      assert r.trace == SetupEvents(env);
    }
  }

  // ---------------------------------------------------------------------------
  // Step 1 and the whole run
  // ---------------------------------------------------------------------------

  /** The container the hooks, rules, validators and method see, or the setup hook's error. */
  ghost function Prepared<V>(env: Env<V>, action: Action<V>, c: Container): Result<Container, Error> {
    PreparedWith(env, action, c, ManagerFor(env, action.metadata))
  }

  /** The run gets past setup, every rule and every validator. */
  ghost predicate Admitted<V>(env: Env<V>, action: Action<V>, c: Container) {
    var p := Prepared(env, action, c);
    p.Success? && RulesPass(env, action, p.value) && ValidatorsPass(env, action, p.value)
  }

  /** Wrapping stages 2 to 5 between an opening and an ending event keeps them in order and adds nothing else. */
  lemma Bracket<V>(t: seq<Event<V>>, last: Event<V>, args: V)
    requires Ordered(t) && Within(t, 2, 5) && ValidatesArgs(t, args)
    requires last == Committed || last == RolledBack
    ensures var w := [TransactionOpened] + t + [last];
      && Ordered(w) && ValidatesArgs(w, args) && |w| >= 2
      && w[0] == TransactionOpened && w[|w| - 1] == last && w[1..|w| - 1] == t
      && HasStage(w, 1) && HasStage(w, 6)
      && (forall s :: 2 <= s <= 5 ==> (HasStage(w, s) <==> HasStage(t, s)))
  {
    var w := [TransactionOpened] + t + [last];
    assert w[1..|w| - 1] == t;
    OrderedConcat([TransactionOpened], t, 1, 2, 5);
    OrderedConcat([TransactionOpened] + t, [last], 1, 6, 6);
    forall s | 2 <= s <= 5 ensures HasStage(w, s) <==> HasStage(t, s) {
      HasStageConcat([TransactionOpened], t, s);
      HasStageConcat([TransactionOpened] + t, [last], s);
    }
    forall i | 0 <= i < |w| && w[i].Validated? ensures w[i].args == args {
      assert w[i] == t[i - 1];
    }
    assert Stage(w[0]) == 1;
    assert Stage(w[|w| - 1]) == 6;
  }

  /** The transaction wrapper adds stages 1 and 6 only, around the inner run. */
  lemma Step1Inner<V>(env: Env<V>, action: Action<V>, c: Container)
    ensures var r := ExecuteControllerAction(env, action, c);
            var inner := Step2(env, action, c, ManagerFor(env, action.metadata));
      && r.outcome == inner.outcome && r.container == inner.container
      && Ordered(r.trace) && ValidatesArgs(r.trace, action.args)
      && (forall s :: 2 <= s <= 5 ==> (HasStage(r.trace, s) <==> HasStage(inner.trace, s)))
      && (HasStage(r.trace, 1) <==> OpensTransaction(env, action.metadata))
      && (HasStage(r.trace, 6) <==> OpensTransaction(env, action.metadata))
      && (OpensTransaction(env, action.metadata) ==>
            && |r.trace| >= 2
            && r.trace[0] == TransactionOpened
            && r.trace[|r.trace| - 1] == (if r.outcome.Success? then Committed else RolledBack)
            && r.trace[1..|r.trace| - 1] == inner.trace)
      && (!OpensTransaction(env, action.metadata) ==> r.trace == inner.trace)
  {
    var inner := Step2(env, action, c, ManagerFor(env, action.metadata));
    Step2Spec(env, action, c, ManagerFor(env, action.metadata));
    if OpensTransaction(env, action.metadata) {
      Bracket(inner.trace, if inner.outcome.Success? then Committed else RolledBack, action.args);
    } else {
      WithinExcludes(inner.trace, 2, 5, 1);
      WithinExcludes(inner.trace, 2, 5, 6);
    }
  }

  /**
   * A transaction is opened iff there is a connection, the descriptor asks
   * for one and the store is not MongoDB. It is the first event; the last is
   * its commit when the run succeeded and its rollback when it failed, so
   * the result is returned only after the transaction has ended.
   */
  lemma TransactionBracket<V>(env: Env<V>, action: Action<V>, c: Container)
    ensures var r := ExecuteControllerAction(env, action, c);
      && (TransactionOpened in r.trace <==> OpensTransaction(env, action.metadata))
      && (OpensTransaction(env, action.metadata) ==>
            && r.trace[0] == TransactionOpened
            && (r.outcome.Success? <==> r.trace[|r.trace| - 1] == Committed)
            && (r.outcome.Failure? <==> r.trace[|r.trace| - 1] == RolledBack)
            && !HasStage(r.trace[1..|r.trace| - 1], 1) && !HasStage(r.trace[1..|r.trace| - 1], 6))
  {
    var r := ExecuteControllerAction(env, action, c);
    Step1Inner(env, action, c);
    Step2Spec(env, action, c, ManagerFor(env, action.metadata));
    if TransactionOpened in r.trace {
      var i :| 0 <= i < |r.trace| && r.trace[i] == TransactionOpened;
      assert Stage(r.trace[i]) == 1;
    }
    if OpensTransaction(env, action.metadata) {
      var inner := Step2(env, action, c, ManagerFor(env, action.metadata));
      WithinExcludes(inner.trace, 2, 5, 1);
      WithinExcludes(inner.trace, 2, 5, 6);
    }
  }

  /** Field resolvers never run inside a transaction, whatever the connection. */
  lemma ResolverNeverTransactional<V>(env: Env<V>, action: Action<V>, c: Container)
    requires action.metadata.ResolveDescriptor?
    ensures TransactionOpened !in ExecuteResolver(env, action, c).trace
    ensures ManagerFor(env, action.metadata) == (if env.connection.Some? then Some(AmbientManager) else None)
  {
    TransactionBracket(env, action, c);
  }

  /**
   * Stages never go backwards: transaction, setup, rules, validators,
   * method, commit or rollback; every validator sees the call's `args`.
   */
  lemma PipelineOrder<V>(env: Env<V>, action: Action<V>, c: Container)
    ensures Ordered(ExecuteControllerAction(env, action, c).trace)
    ensures ValidatesArgs(ExecuteControllerAction(env, action, c).trace, action.args)
    ensures HasStage(ExecuteControllerAction(env, action, c).trace, 2) <==> env.setupContainer.Some?
  {
    Step1Inner(env, action, c);
    Step2Spec(env, action, c, ManagerFor(env, action.metadata));
  }

  /** Steps 3 to 5 on the prepared container reach the method iff every rule and validator passes. */
  lemma AfterSetup<V>(env: Env<V>, action: Action<V>, p: Container)
    ensures var t := SetupEvents(env) + Step3(env, action, p).trace;
      && (HasStage(t, 5) <==> RulesPass(env, action, p) && ValidatorsPass(env, action, p))
      && (HasStage(t, 4) ==> RulesPass(env, action, p))
  {
    Step3Spec(env, action, p);
    var r3 := Step3(env, action, p);
    HasStageConcat(SetupEvents(env), r3.trace, 4);
    HasStageConcat(SetupEvents(env), r3.trace, 5);
    assert Within(SetupEvents<V>(env), 2, 2);
    WithinExcludes(SetupEvents<V>(env), 2, 2, 4);
    WithinExcludes(SetupEvents<V>(env), 2, 2, 5);
  }

  /**
   * The method is called iff setup, every rule and every validator pass,
   * and then its result, unchanged, is the run's result.
   */
  lemma PipelineInvokes<V>(env: Env<V>, action: Action<V>, c: Container)
    ensures var r := ExecuteControllerAction(env, action, c);
      && (HasStage(r.trace, 5) <==> Admitted(env, action, c))
      && (Admitted(env, action, c) ==>
            r.outcome == env.invoke(Target(action.metadata), MethodName(action.metadata), CallFor(action),
                                    Prepared(env, action, c).value))
  {
    Step1Inner(env, action, c);
    Step2Spec(env, action, c, ManagerFor(env, action.metadata));
    var p := Prepared(env, action, c);
    if p.Success? {
      AfterSetup(env, action, p.value);
      Step3Spec(env, action, p.value);
      Step4Spec(env, action, p.value);
    } else {
      assert Within(SetupEvents<V>(env), 2, 2);
      WithinExcludes(SetupEvents<V>(env), 2, 2, 5);
    }
  }

  /** A failing setup hook ends the run with its error before any rule, validator or method. */
  lemma SetupFailureStops<V>(env: Env<V>, action: Action<V>, c: Container)
    requires Prepared(env, action, c).Failure?
    ensures var r := ExecuteControllerAction(env, action, c);
      && r.outcome == Failure(Prepared(env, action, c).error)
      && !HasStage(r.trace, 3) && !HasStage(r.trace, 4) && !HasStage(r.trace, 5)
  {
    Step1Inner(env, action, c);
    Step2Spec(env, action, c, ManagerFor(env, action.metadata));
    assert Within(SetupEvents<V>(env), 2, 2);
    WithinExcludes(SetupEvents<V>(env), 2, 2, 3);
    WithinExcludes(SetupEvents<V>(env), 2, 2, 4);
    WithinExcludes(SetupEvents<V>(env), 2, 2, 5);
  }

  /**
   * A rule that fails ends the run with the error of the first failing rule;
   * no validator runs and the method is not called.
   */
  lemma AuthorizationFailureStops<V>(env: Env<V>, action: Action<V>, c: Container)
    requires Prepared(env, action, c).Success?
    requires !RulesPass(env, action, Prepared(env, action, c).value)
    ensures var r := ExecuteControllerAction(env, action, c); var p := Prepared(env, action, c).value;
      && !HasStage(r.trace, 4) && !HasStage(r.trace, 5)
      && exists k :: FirstFailure(Rules(action.metadata), RuleCheck(env, action, p), k)
                     && r.outcome == Failure(CheckRule(env, action, p, Rules(action.metadata)[k]).error)
  {
    var p := Prepared(env, action, c).value;
    Step1Inner(env, action, c);
    Step2Spec(env, action, c, ManagerFor(env, action.metadata));
    Step3Spec(env, action, p);
    AfterSetup(env, action, p);
  }

  /**
   * Once every rule passes, a rejecting validator ends the run with the
   * first rejection's error and the method is not called.
   */
  lemma ValidationFailureStops<V>(env: Env<V>, action: Action<V>, c: Container)
    requires Prepared(env, action, c).Success?
    requires RulesPass(env, action, Prepared(env, action, c).value)
    requires !ValidatorsPass(env, action, Prepared(env, action, c).value)
    ensures var r := ExecuteControllerAction(env, action, c); var p := Prepared(env, action, c).value;
      && !HasStage(r.trace, 5)
      && exists k :: FirstFailure(Validators(action.metadata), ValidatorCheck(env, p, action.args), k)
                     && r.outcome == Failure(env.validate(Validators(action.metadata)[k], p, action.args).error)
  {
    var p := Prepared(env, action, c).value;
    PipelineInvokes(env, action, c);
    Step1Inner(env, action, c);
    Step2Spec(env, action, c, ManagerFor(env, action.metadata));
    Step3Spec(env, action, p);
    Step4Spec(env, action, p);
  }

  // ---------------------------------------------------------------------------
  // Returned values of the checks
  // ---------------------------------------------------------------------------

  /** `f` and `g` succeed on the same elements and fail with the same errors; their values may differ. */
  ghost predicate SameVerdicts<V, X(!new)>(f: X -> Result<V, Error>, g: X -> Result<V, Error>) {
    forall x :: f(x).Success? == g(x).Success? && (f(x).Failure? ==> f(x).error == g(x).error)
  }

  /** Only whether a check fails, and with which error, reaches the ordered run. */
  lemma {:induction false} RunInOrderIgnoresValues<V, X(!new)>(xs: seq<X>, f: X -> Result<V, Error>, g: X -> Result<V, Error>, ev: X -> Event<V>)
    requires SameVerdicts(f, g)
    ensures RunInOrder(xs, f, ev) == RunInOrder(xs, g, ev)
    decreases |xs|
  {
    if xs != [] {
      assert f(xs[0]).Success? == g(xs[0]).Success?;
      RunInOrderIgnoresValues(xs[1..], f, g, ev);
    }
  }

  /**
   * Authorization results are ignored: replacing the authorization checker
   * and the role checkers by ones that throw in the same cases, whatever
   * they return otherwise (for instance `false`), changes nothing in the run.
   */
  lemma AuthorizationValuesIgnored<V>(env: Env<V>, env': Env<V>, action: Action<V>, c: Container)
    requires env' == env.(authorizationChecker := env'.authorizationChecker, check := env'.check)
    requires env.authorizationChecker.Some? == env'.authorizationChecker.Some?
    requires env.authorizationChecker.Some? ==>
      forall roles, a :: env.authorizationChecker.value(roles, a).Success? == env'.authorizationChecker.value(roles, a).Success?
                      && (env.authorizationChecker.value(roles, a).Failure? ==>
                            env.authorizationChecker.value(roles, a).error == env'.authorizationChecker.value(roles, a).error)
    requires forall cls, k, a :: env.check(cls, k, a).Success? == env'.check(cls, k, a).Success?
                              && (env.check(cls, k, a).Failure? ==> env.check(cls, k, a).error == env'.check(cls, k, a).error)
    ensures ExecuteControllerAction(env, action, c) == ExecuteControllerAction(env', action, c)
  {
    forall k: Container ensures Step3(env, action, k) == Step3(env', action, k) {
      assert SameVerdicts(RuleCheck(env, action, k), RuleCheck(env', action, k)) by {
        forall rule: AuthorizeSpec
          ensures CheckRule(env, action, k, rule).Success? == CheckRule(env', action, k, rule).Success?
          ensures CheckRule(env, action, k, rule).Failure? ==> CheckRule(env, action, k, rule).error == CheckRule(env', action, k, rule).error
        {
        }
      }
      RunInOrderIgnoresValues(Rules(action.metadata), RuleCheck(env, action, k), RuleCheck(env', action, k), RuleEvent(action));
      assert Step4(env, action, k) == Step4(env', action, k);
    }
    var m := ManagerFor(env, action.metadata);
    assert m == ManagerFor(env', action.metadata);
    assert Step2(env, action, c, m) == Step2(env', action, c, m);
  }
}

=== FILE: init_command.dfy ===
/**
 * The decisions of the project generator's `init` command: language and
 * database defaults, which files it writes (and which it keeps when they
 * exist), the docker-compose selection, and how `package.json` is extended.
 * Template texts and the file system are outside the model.
 */
module InitCommand {
  import opened Wrappers
  import opened Types
  import opened Js

  // ---------------------------------------------------------------------------
  // Command-line decisions
  // ---------------------------------------------------------------------------

  datatype Language = TypeScript | JavaScript

  /** The options `init` reads; `typescript` is `undefined` when the flag is not given. */
  datatype Argv = Argv(name: Option<string>, typescript: JsValue, database: Option<string>)

  /** Any value of the flag, even `false`, selects TypeScript. */
  function LanguageOf(argv: Argv): (l: Language)
    ensures l == TypeScript <==> argv.typescript != Undefined
  {
    if argv.typescript != Undefined then TypeScript else JavaScript
  }

  function DatabaseOf(argv: Argv): (d: string)
    ensures TruthyString(argv.database) ==> d == argv.database.value
    ensures !TruthyString(argv.database) ==> d == "sqlite"
  {
    OrElse(argv.database, "sqlite")
  }

  /** `s` with every trailing `/` removed. */
  function StripTrailingSlashes(s: string): (r: string)
    ensures r <= s
    ensures r == [] || r[|r| - 1] != '/'
    ensures forall i :: |r| <= i < |s| ==> s[i] == '/'
    decreases |s|
  {
    if s != [] && s[|s| - 1] == '/' then StripTrailingSlashes(s[..|s| - 1]) else s
  }

  /** What follows the last `/` of `s`. */
  function AfterLastSlash(s: string): (r: string)
    ensures |r| <= |s| && r == s[|s| - |r|..]
    ensures '/' !in r
    ensures |r| < |s| ==> s[|s| - |r| - 1] == '/'
    decreases |s|
  {
    if s == [] || s[|s| - 1] == '/' then []
    else AfterLastSlash(s[..|s| - 1]) + [s[|s| - 1]]
  }

  /** `path.basename` on POSIX paths: the last segment, ignoring trailing slashes. */
  function Basename(s: string): (r: string)
    ensures var t := StripTrailingSlashes(s); |r| <= |t| && r == t[|t| - |r|..]
    ensures var t := StripTrailingSlashes(s); |r| < |t| ==> t[|t| - |r| - 1] == '/'
    ensures '/' !in r
    ensures (forall i :: 0 <= i < |s| ==> s[i] != '/') ==> r == s
  {
    AfterLastSlash(StripTrailingSlashes(s))
  }

  /** The `name` of the generated `package.json`. */
  function PackageName(projectName: Option<string>): (n: string)
    ensures TruthyString(projectName) ==> n == projectName.value
    ensures !TruthyString(projectName) ==> n == "graphstack-project"
  {
    OrElse(projectName, "graphstack-project")
  }

  // ---------------------------------------------------------------------------
  // docker-compose.yml
  // ---------------------------------------------------------------------------

  /** The databases with a docker-compose template. */
  const ComposeDatabases: set<string> := {"mysql", "mariadb", "postgres", "sqlite", "mssql", "mongodb"}

  const OracleComposeError := Error("You cannot initialize a project with docker for Oracle driver yet.")

  /** Which docker-compose text is produced: the database's own template, or the empty text. */
  datatype Compose = ComposeFor(database: string) | EmptyCompose

  /** `getDockerComposeTemplate`: Oracle throws; an unknown database gives the empty text. */
  function DockerComposeTemplate(database: string): (r: Result<Compose, Error>)
    ensures r.Failure? <==> database == "oracle"
    ensures r.Failure? ==> r.error == OracleComposeError
    ensures r == Success(EmptyCompose) <==> database != "oracle" && database !in ComposeDatabases
    ensures database in ComposeDatabases ==> r == Success(ComposeFor(database))
  {
    if database in ComposeDatabases then Success(ComposeFor(database))
    else if database == "oracle" then Failure(OracleComposeError)
    else Success(EmptyCompose)
  }

  // ---------------------------------------------------------------------------
  // The file plan
  // ---------------------------------------------------------------------------

  /** The files `init` generates. */
  datatype ProjectFile =
    | PackageJson | DockerCompose | GitIgnore | Readme | TsConfig | OrmConfig
    | SourceFile(source: string)
    | SchemaFile(schema: string)

  /** Where a file goes, relative to the project directory. */
  function FilePath(f: ProjectFile): string {
    match f
    case PackageJson => "package.json"
    case DockerCompose => "docker-compose.yml"
    case GitIgnore => ".gitignore"
    case Readme => "README.md"
    case TsConfig => "tsconfig.json"
    case OrmConfig => "ormconfig.json"
    case SourceFile(path) => path
    case SchemaFile(path) => path
  }

  /** One effect; `override` false keeps a file that already exists. */
  datatype Step = WriteFile(file: ProjectFile, override: bool) | MakeDirectories(dir: string)

  /** What `init` decides: the settings, the effects in order, and the error that ended it, if any. */
  datatype Plan = Plan(
    language: Language,
    database: string,
    basePath: string,
    packageName: string,
    steps: seq<Step>,
    failure: Option<Error>)

  const TsSources: seq<string> := [
    "src/controller/UserController.ts", "src/controller/PhotoController.ts",
    "src/args/UsersArgs.ts", "src/args/UserSaveArgs.ts", "src/args/PhotoSaveArgs.ts",
    "src/entity/User.ts", "src/entity/Photo.ts", "src/index.ts"]

  const JsSources: seq<string> := [
    "src/controller/UserController.js", "src/controller/PhotoController.js",
    "src/entity/User.js", "src/entity/Photo.js", "src/index.js"]

  const SchemaPaths: seq<string> := [
    "src/schema/model/User.graphql", "src/schema/model/Photo.graphql",
    "src/schema/controller/UserController.graphql", "src/schema/controller/PhotoController.graphql"]

  function Sources(language: Language): seq<Step> {
    var paths := if language == TypeScript then TsSources else JsSources;
    seq(|paths|, i requires 0 <= i < |paths| => WriteFile(SourceFile(paths[i]), true))
  }

  function Schemas(): seq<Step> {
    seq(|SchemaPaths|, i requires 0 <= i < |SchemaPaths| => WriteFile(SchemaFile(SchemaPaths[i]), true))
  }

  /** The generated code: the language's sources, then the GraphQL schemas. */
  function Generated(language: Language): seq<Step> {
    Sources(language) + Schemas()
  }

  /** Everything after the optional docker-compose file. */
  function RemainingSteps(language: Language): seq<Step> {
    [WriteFile(GitIgnore, true), WriteFile(Readme, false)]
    + (if language == TypeScript then [WriteFile(TsConfig, true)] else [])
    + [WriteFile(OrmConfig, true)]
    + Generated(language)
    + [MakeDirectories("src/migration"), WriteFile(PackageJson, true)]
  }

  /** The effects of a run that does not fail. */
  function WrittenSteps(language: Language, database: string): seq<Step> {
    [WriteFile(PackageJson, false)]
    + (if database != "sqlite" then [WriteFile(DockerCompose, false)] else [])
    + RemainingSteps(language)
  }

  /**
   * `init`: the effects in order. The docker-compose template is computed
   * before its file is written, so for Oracle the run stops with only
   * `package.json` written.
   */
  function Handler(argv: Argv, cwd: string): (p: Plan)
    ensures p.language == LanguageOf(argv) && p.database == DatabaseOf(argv)
    ensures p.basePath == cwd + (if TruthyString(argv.name) then "/" + argv.name.value else "")
    ensures p.packageName == PackageName(if TruthyString(argv.name) then Some(Basename(argv.name.value)) else None)
    ensures p.failure.Some? <==> p.database == "oracle"
    ensures p.failure.Some? ==> p.steps == [WriteFile(PackageJson, false)] && p.failure.value == OracleComposeError
    ensures p.failure.None? ==> p.steps == WrittenSteps(p.language, p.database)
  {
    var language := LanguageOf(argv);
    var database := DatabaseOf(argv);
    var named := TruthyString(argv.name);
    var base := cwd + (if named then "/" + argv.name.value else "");
    var name := PackageName(if named then Some(Basename(argv.name.value)) else None);
    if database != "sqlite" && DockerComposeTemplate(database).Failure? then
      Plan(language, database, base, name, [WriteFile(PackageJson, false)], Some(DockerComposeTemplate(database).error))
    else
      Plan(language, database, base, name, WrittenSteps(language, database), None)
  }

  /** The plan writes `f` with the given override flag. */
  ghost predicate Writes(steps: seq<Step>, f: ProjectFile, override: bool) {
    WriteFile(f, override) in steps
  }

  /** Sources and schemas are written with override on, and are neither kind of fixed file. */
  lemma GeneratedCode(language: Language)
    ensures forall s :: s in Generated(language) ==>
      s.WriteFile? && s.override && (s.file.SourceFile? || s.file.SchemaFile?)
  {
    forall s | s in Generated(language)
      ensures s.WriteFile? && s.override && (s.file.SourceFile? || s.file.SchemaFile?)
    {
      if s in Sources(language) {
        var i :| 0 <= i < |Sources(language)| && Sources(language)[i] == s;
      } else {
        var i :| 0 <= i < |Schemas()| && Schemas()[i] == s;
      }
    }
  }

  /**
   * A run that does not fail starts with the first `package.json` write and
   * ends by creating the migration directory and rewriting `package.json`.
   */
  lemma PlanStartsAndEnds(language: Language, database: string)
    ensures var steps := WrittenSteps(language, database);
      && |steps| >= 3
      && steps[0] == WriteFile(PackageJson, false)
      && steps[|steps| - 2] == MakeDirectories("src/migration")
      && steps[|steps| - 1] == WriteFile(PackageJson, true)
  {
  }

  /** `docker-compose.yml` is written, and kept if it exists, iff the database is not SQLite. */
  lemma DockerComposeUnlessSqlite(language: Language, database: string)
    ensures Writes(WrittenSteps(language, database), DockerCompose, false) <==> database != "sqlite"
    ensures !Writes(WrittenSteps(language, database), DockerCompose, true)
  {
    GeneratedCode(language);
  }

  /** `tsconfig.json` is written, overriding any existing one, iff the language is TypeScript. */
  lemma TsConfigIffTypeScript(language: Language, database: string)
    ensures Writes(WrittenSteps(language, database), TsConfig, true) <==> language == TypeScript
    ensures !Writes(WrittenSteps(language, database), TsConfig, false)
  {
    GeneratedCode(language);
  }

  /**
   * Only `package.json` (on its first write), `docker-compose.yml` and
   * `README.md` are kept when they already exist.
   */
  lemma KeptFiles(language: Language, database: string, i: int)
    requires 0 <= i < |WrittenSteps(language, database)|
    requires WrittenSteps(language, database)[i].WriteFile? && !WrittenSteps(language, database)[i].override
    ensures WrittenSteps(language, database)[i].file in {PackageJson, DockerCompose, Readme}
    ensures WrittenSteps(language, database)[i].file == PackageJson ==> i == 0
  {
    GeneratedCode(language);
    var steps := WrittenSteps(language, database);
    assert steps[i] in steps;
  }

  // ---------------------------------------------------------------------------
  // package.json
  // ---------------------------------------------------------------------------

  /** The driver package and version range added for a database, if it is known. */
  function DriverFor(database: string): (r: Option<(string, string)>)
    ensures r.Some? <==> database in {"mysql", "mariadb", "postgres", "sqlite", "oracle", "mssql", "mongodb"}
    ensures database == "mysql" || database == "mariadb" ==> r == Some(("mysql", "^2.14.1"))
  {
    match database
    case "mysql" => Some(("mysql", "^2.14.1"))
    case "mariadb" => Some(("mysql", "^2.14.1"))
    case "postgres" => Some(("pg", "^7.3.0"))
    case "sqlite" => Some(("sqlite3", "^3.1.10"))
    case "oracle" => Some(("oracledb", "^1.13.1"))
    case "mssql" => Some(("mssql", "^4.0.4"))
    case "mongodb" => Some(("mongodb", "^2.2.31"))
    case _ => None
  }

  /** The development dependencies of each language. */
  function DevDependencies(language: Language): (m: map<string, JsValue>)
    ensures language == TypeScript ==> m.Keys == {"ts-node", "typescript"}
    ensures language == JavaScript ==> m.Keys == {"babel-cli", "babel-polyfill", "babel-preset-env"}
    ensures forall k :: k in m ==> m[k].Str?
  {
    match language
    case TypeScript => map["ts-node" := Str("^5.0.1"), "typescript" := Str("^2.7.2")]
    case JavaScript => map["babel-cli" := Str("^6.26.0"), "babel-polyfill" := Str("^6.26.0"), "babel-preset-env" := Str("^1.6.1")]
  }

  /** The runtime dependencies: the framework itself and the database driver. */
  function Dependencies(database: string, version: string): (m: map<string, JsValue>)
    ensures m.Keys == {"graphstack"} + (if DriverFor(database).Some? then {DriverFor(database).value.0} else {})
    ensures m["graphstack"] == Str(version)
    ensures DriverFor(database).Some? ==> m[DriverFor(database).value.0] == Str(DriverFor(database).value.1)
  {
    var m := map["graphstack" := Str(version)];
    match DriverFor(database)
    case None => m
    case Some((pkg, range)) => m[pkg := Str(range)]
  }

  /** The scripts of each language. */
  function Scripts(language: Language): (m: map<string, JsValue>)
    ensures language == TypeScript ==> m.Keys == {"start"}
    ensures language == JavaScript ==> m.Keys == {"compile", "start"}
    ensures forall k :: k in m ==> m[k].Str?
  {
    match language
    case TypeScript => map["start" := Str("ts-node src/index.ts")]
    case JavaScript => map[
      "compile" := Str("npx babel src --out-dir dist --copy-files --source-maps --presets=babel-preset-env"),
      "start" := Str("npm run compile && node ./dist/index.js")]
  }

  /**
   * `if (!section) section = {}` followed by `Object.assign(section, entries)`.
   * A truthy section that is not a plain object is left as it is.
   */
  function Extend(section: JsValue, entries: map<string, JsValue>): (r: JsValue)
    ensures !Truthy(section) ==> r == Obj(entries)
    ensures section.Obj? ==> r == Obj(section.props + entries)
    ensures Truthy(section) && !section.Obj? ==> r == section
  {
    if !Truthy(section) then Obj(entries)
    else if section.Obj? then Obj(section.props + entries)
    else section
  }

  /** A top-level member of the parsed `package.json`, `undefined` when absent. */
  function Member(pkg: map<string, JsValue>, key: string): JsValue {
    if key in pkg then pkg[key] else Undefined
  }

  /** The three sections `appendPackageJson` extends. */
  predicate IsSection(key: string) {
    key == "devDependencies" || key == "dependencies" || key == "scripts"
  }

  /** `pkg` with its three sections set to the given values. */
  function WithSections(pkg: map<string, JsValue>, dev: JsValue, deps: JsValue, scripts: JsValue): (r: map<string, JsValue>)
    ensures r.Keys == pkg.Keys + {"devDependencies", "dependencies", "scripts"}
    ensures forall k :: k in pkg && !IsSection(k) ==> r[k] == pkg[k]
    ensures r["devDependencies"] == dev && r["dependencies"] == deps && r["scripts"] == scripts
  {
    pkg["devDependencies" := dev]["dependencies" := deps]["scripts" := scripts]
  }

  /** The three sections extended with the given entries; every other member kept. */
  function Augment(pkg: map<string, JsValue>, dev: map<string, JsValue>, deps: map<string, JsValue>,
                   scripts: map<string, JsValue>): (r: map<string, JsValue>)
    ensures r.Keys == pkg.Keys + {"devDependencies", "dependencies", "scripts"}
    ensures forall k :: k in pkg && !IsSection(k) ==> r[k] == pkg[k]
    ensures r["devDependencies"] == Extend(Member(pkg, "devDependencies"), dev)
    ensures r["dependencies"] == Extend(Member(pkg, "dependencies"), deps)
    ensures r["scripts"] == Extend(Member(pkg, "scripts"), scripts)
  {
    WithSections(pkg, Extend(Member(pkg, "devDependencies"), dev),
                 Extend(Member(pkg, "dependencies"), deps),
                 Extend(Member(pkg, "scripts"), scripts))
  }

  /**
   * `appendPackageJson` on the parsed object; `version` is the framework's
   * own version. Every other member is kept.
   */
  function AppendPackageJson(pkg: map<string, JsValue>, database: string, language: Language, version: string): (r: map<string, JsValue>)
    ensures r.Keys == pkg.Keys + {"devDependencies", "dependencies", "scripts"}
    ensures forall k :: k in pkg && !IsSection(k) ==> r[k] == pkg[k]
    ensures r["devDependencies"] == Extend(Member(pkg, "devDependencies"), DevDependencies(language))
    ensures r["dependencies"] == Extend(Member(pkg, "dependencies"), Dependencies(database, version))
    ensures r["scripts"] == Extend(Member(pkg, "scripts"), Scripts(language))
  {
    Augment(pkg, DevDependencies(language), Dependencies(database, version), Scripts(language))
  }

  /** Extending an empty object yields exactly the entries. */
  lemma ExtendEmpty(entries: map<string, JsValue>)
    ensures Extend(Obj(map[]), entries) == Obj(entries)
  {
    assert map[] + entries == entries;
  }

  /** Extending twice with the same entries is extending once. */
  lemma ExtendIdempotent(section: JsValue, entries: map<string, JsValue>)
    ensures Extend(Extend(section, entries), entries) == Extend(section, entries)
  {
    if section.Obj? {
      assert section.props + entries + entries == section.props + entries;
    } else if !Truthy(section) {
      assert entries + entries == entries;
    }
  }

  /** Setting the sections to the values they already hold changes nothing. */
  lemma WithSectionsUnchanged(m: map<string, JsValue>)
    requires "devDependencies" in m && "dependencies" in m && "scripts" in m
    ensures WithSections(m, m["devDependencies"], m["dependencies"], m["scripts"]) == m
  {
  }

  /** Augmenting an augmented object again with the same entries changes nothing. */
  lemma AugmentIdempotent(pkg: map<string, JsValue>, dev: map<string, JsValue>, deps: map<string, JsValue>,
                          scripts: map<string, JsValue>)
    ensures var once := Augment(pkg, dev, deps, scripts);
      Augment(once, dev, deps, scripts) == once
  {
    var once := Augment(pkg, dev, deps, scripts);
    ExtendIdempotent(Member(pkg, "devDependencies"), dev);
    ExtendIdempotent(Member(pkg, "dependencies"), deps);
    ExtendIdempotent(Member(pkg, "scripts"), scripts);
    WithSectionsUnchanged(once);
  }

  /** Running the augmentation on its own output changes nothing. */
  lemma AppendPackageJsonIdempotent(pkg: map<string, JsValue>, database: string, language: Language, version: string)
    ensures var once := AppendPackageJson(pkg, database, language, version);
      AppendPackageJson(once, database, language, version) == once
  {
    AugmentIdempotent(pkg, DevDependencies(language), Dependencies(database, version), Scripts(language));
  }

  /** The `package.json` template a new project starts from, with its three sections empty. */
  function Template(name: string): (pkg: map<string, JsValue>)
    ensures pkg.Keys == {"name", "version", "description", "devDependencies", "dependencies", "scripts"}
    ensures pkg["name"] == Str(name)
    ensures pkg["devDependencies"] == Obj(map[]) && pkg["dependencies"] == Obj(map[]) && pkg["scripts"] == Obj(map[])
  {
    map["name" := Str(name), "version" := Str("0.0.1"),
        "description" := Str("Awesome project developed with GraphStack framework."),
        "devDependencies" := Obj(map[]), "dependencies" := Obj(map[]), "scripts" := Obj(map[])]
  }

  /**
   * On the generated template (all three sections present and empty) the
   * sections hold exactly the language's tooling, the framework plus the
   * database's driver, and the language's scripts.
   */
  lemma FreshTemplate(name: string, database: string, language: Language, version: string)
    ensures var r := AppendPackageJson(Template(name), database, language, version);
      && r["devDependencies"] == Obj(DevDependencies(language))
      && r["dependencies"] == Obj(Dependencies(database, version))
      && r["scripts"] == Obj(Scripts(language))
      && r["name"] == Str(name)
  {
    assert !IsSection("name");
    ExtendEmpty(DevDependencies(language));
    ExtendEmpty(Dependencies(database, version));
    ExtendEmpty(Scripts(language));
  }
}

=== FILE: js.dfy ===
/**
 * JavaScript values, as far as the core inspects them: `undefined`,
 * `null`, booleans, integers, strings, arrays and plain objects.
 */
module Js {
  datatype JsValue =
    | Undefined
    | Null
    | Bool(b: bool)
    | Num(n: int)
    | Str(s: string)
    | Arr(items: seq<JsValue>)
    | Obj(props: map<string, JsValue>)

  /** `v[key]` for an own property of a plain object; `undefined` otherwise. */
  function Property(v: JsValue, key: string): (r: JsValue)
    ensures r != Undefined ==> v.Obj? && key in v.props && r == v.props[key]
    ensures v.Obj? && key in v.props ==> r == v.props[key]
  {
    if v.Obj? && key in v.props then v.props[key] else Undefined
  }

  /** JavaScript truthiness: everything except `undefined`, `null`, `false`, `0` and `""`. */
  predicate Truthy(v: JsValue) {
    !(v.Undefined? || v.Null? || v == Bool(false) || v == Num(0) || v == Str(""))
  }
}

=== FILE: metadata.dfy ===
/**
 * Resolved descriptors and the declarative module configuration they are
 * built from. These are records only; the builders give them meaning.
 */
module Metadata {
  import opened Wrappers
  import opened Types

  /** One controller action, resolved. */
  datatype ActionMetadata = ActionMetadata(
    kind: ActionType,
    target: ClassRef,
    methodName: string,
    name: string,
    transaction: bool,
    validators: seq<ClassRef>,
    authorizes: seq<AuthorizeSpec>)

  /** The entity a resolver is bound to: a class or an ORM entity schema (by its declared name). */
  datatype EntityRef = EntityClassRef(cls: ClassRef) | EntitySchemaRef(schemaName: string)

  /** One field resolver, resolved. */
  datatype ResolveMetadata = ResolveMetadata(
    target: ClassRef,
    name: string,
    entity: Option<EntityRef>,
    methodName: string,
    resolvingPropertyName: string,
    dataLoader: bool,
    validators: seq<ClassRef>,
    authorizes: seq<AuthorizeSpec>)

  /** A controller action declared literally in a module. */
  datatype ModuleAction = ModuleAction(
    kind: ActionType,
    controller: ClassRef,
    action: string,
    name: Option<string>,
    transaction: Option<bool>,
    validators: Option<seq<ClassRef>>,
    authorizes: Option<seq<AuthorizeSpec>>)

  /** An entry of a module's `controllers`: a class, a directory glob, or a literal action. */
  datatype ControllerEntry =
    | ControllerClass(cls: ClassRef)
    | ControllerDir(glob: string)
    | ControllerAction(action: ModuleAction)

  /** A resolver method declared in a module, by object. */
  datatype ModuleResolverMethod = ModuleResolverMethod(
    methodName: string,
    name: Option<string>,
    many: Option<bool>,
    validators: Option<seq<ClassRef>>,
    authorizes: Option<seq<AuthorizeSpec>>)

  /** A resolver method declared by name only, or by object. */
  datatype MethodEntry = MethodString(methodName: string) | MethodObject(spec: ModuleResolverMethod)

  /** The model a module resolver augments: an entity class, an entity schema, or a type name. */
  datatype ModelRef = ModelClass(cls: ClassRef) | ModelSchema(schemaName: string) | ModelName(typeName: string)

  /** A resolver declared literally in a module. */
  datatype ModuleResolver = ModuleResolver(model: ModelRef, resolver: ClassRef, methods: seq<MethodEntry>)

  /** An entry of a module's `resolvers`: a class, a directory glob, or a literal resolver. */
  datatype ResolverEntry =
    | ResolverClass(cls: ClassRef)
    | ResolverDir(glob: string)
    | ResolverObject(resolver: ModuleResolver)

  /** The parts of a module the core reads. */
  datatype GraphModule = GraphModule(
    schemas: Option<seq<string>>,
    controllers: Option<seq<ControllerEntry>>,
    resolvers: Option<seq<ResolverEntry>>)

  /** The caller-supplied entity naming function, when configured. */
  type Naming = Option<ClassRef -> string>

  /** `entityResolverNamingStrategy ? entityResolverNamingStrategy(cls) : cls.name` */
  function EntityName(naming: Naming, cls: ClassRef): (r: string)
    ensures naming.None? ==> r == cls.name
    ensures naming.Some? ==> r == naming.value(cls)
  {
    match naming
    case Some(f) => f(cls)
    case None => cls.name
  }
}

=== FILE: metadata_args.dfy ===
/**
 * The decorator registry: six append-only lists of raw facts, a `reset`, and
 * the lazily created process-wide instance.
 */
module MetadataArgs {
  import opened Wrappers
  import opened Types

  /** A class registered with `@Controller()`. */
  datatype ControllerArgs = ControllerArgs(target: ClassRef)

  /** A method registered with `@Query`, `@Mutation` or `@Subscription`. */
  datatype ActionArgs = ActionArgs(
    kind: ActionType,
    target: ClassRef,
    methodName: string,
    name: Option<string>,
    transaction: Option<bool>)

  /** What a resolver class resolves: an entity class or a type name. */
  datatype ResolverName = EntityClass(entity: ClassRef) | TypeName(typeName: string)

  /** A class registered with `@Resolver(name)`. */
  datatype ResolverArgs = ResolverArgs(target: ClassRef, name: ResolverName)

  /**
   * A method registered with `@Resolve`. `dataLoader` is absent when the
   * decorator found no parameter-type metadata (the stored value is then
   * `undefined`, which is falsy but not `false`).
   */
  datatype ResolveArgs = ResolveArgs(
    target: ClassRef,
    methodName: string,
    name: Option<string>,
    dataLoader: Option<bool>)

  /** A validator class attached with `@ArgsValidator`. */
  datatype ValidatorArgs = ValidatorArgs(target: ClassRef, methodName: string, validator: ClassRef)

  /**
   * An authorization rule attached with `@Authorized`. `methodName` is absent
   * when the decorator is applied to a class rather than a method.
   */
  datatype AuthorizedArgs = AuthorizedArgs(target: ClassRef, methodName: Option<string>, roles: AuthorizeSpec)

  /** The registry record. */
  datatype Storage = Storage(
    controllers: seq<ControllerArgs>,
    actions: seq<ActionArgs>,
    resolvers: seq<ResolverArgs>,
    resolves: seq<ResolveArgs>,
    validators: seq<ValidatorArgs>,
    authorizes: seq<AuthorizedArgs>)

  /** True when all six lists are empty. */
  predicate IsEmpty(s: Storage) {
    && s.controllers == []
    && s.actions == []
    && s.resolvers == []
    && s.resolves == []
    && s.validators == []
    && s.authorizes == []
  }

  /** A freshly constructed storage. */
  function NewStorage(): (s: Storage)
    ensures IsEmpty(s)
  {
    Storage([], [], [], [], [], [])
  }

  /** `reset()`: every list is replaced by an empty one. */
  function Reset(s: Storage): (r: Storage)
    ensures IsEmpty(r)
    ensures r == NewStorage()
  {
    s.(controllers := [], actions := [], resolvers := [], resolves := [], validators := [], authorizes := [])
  }

  lemma ResetIdempotent(s: Storage)
    ensures Reset(Reset(s)) == Reset(s)
  {
  }

  // Appends, one per list. Each touches exactly its own list.

  function AddController(s: Storage, c: ControllerArgs): (r: Storage)
    ensures r.controllers == s.controllers + [c]
    ensures r.(controllers := s.controllers) == s
  {
    s.(controllers := s.controllers + [c])
  }

  function AddAction(s: Storage, a: ActionArgs): (r: Storage)
    ensures r.actions == s.actions + [a]
    ensures r.(actions := s.actions) == s
  {
    s.(actions := s.actions + [a])
  }

  function AddResolver(s: Storage, x: ResolverArgs): (r: Storage)
    ensures r.resolvers == s.resolvers + [x]
    ensures r.(resolvers := s.resolvers) == s
  {
    s.(resolvers := s.resolvers + [x])
  }

  function AddResolve(s: Storage, x: ResolveArgs): (r: Storage)
    ensures r.resolves == s.resolves + [x]
    ensures r.(resolves := s.resolves) == s
  {
    s.(resolves := s.resolves + [x])
  }

  function AddValidator(s: Storage, v: ValidatorArgs): (r: Storage)
    ensures r.validators == s.validators + [v]
    ensures r.(validators := s.validators) == s
  {
    s.(validators := s.validators + [v])
  }

  function AddAuthorized(s: Storage, a: AuthorizedArgs): (r: Storage)
    ensures r.authorizes == s.authorizes + [a]
    ensures r.(authorizes := s.authorizes) == s
  {
    s.(authorizes := s.authorizes + [a])
  }

  /** Total number of facts held, over all six lists. */
  function Size(s: Storage): nat {
    |s.controllers| + |s.actions| + |s.resolvers| + |s.resolves| + |s.validators| + |s.authorizes|
  }

  /** Every append grows the registry by exactly one fact. */
  lemma AppendGrowsByOne(s: Storage, c: ControllerArgs, a: ActionArgs, x: ResolverArgs,
                         y: ResolveArgs, v: ValidatorArgs, z: AuthorizedArgs)
    ensures Size(AddController(s, c)) == Size(s) + 1
    ensures Size(AddAction(s, a)) == Size(s) + 1
    ensures Size(AddResolver(s, x)) == Size(s) + 1
    ensures Size(AddResolve(s, y)) == Size(s) + 1
    ensures Size(AddValidator(s, v)) == Size(s) + 1
    ensures Size(AddAuthorized(s, z)) == Size(s) + 1
  {
  }

  // ---------------------------------------------------------------------------
  // The process-wide instance
  // ---------------------------------------------------------------------------

  /**
   * The global object as far as the registry is concerned: the slot that may
   * hold a reference to a storage, and a heap of allocated storages.
   */
  datatype Globals = Globals(slot: Option<nat>, heap: map<nat, Storage>, nextRef: nat)

  /** References in the slot point into the heap; fresh references are above every used one. */
  predicate Valid(g: Globals) {
    && (g.slot.Some? ==> g.slot.value in g.heap)
    && (forall r :: r in g.heap ==> r < g.nextRef)
  }

  /**
   * `getMetadataArgsStorage()`: creates a storage and puts it in the global
   * slot when the slot is empty, then returns the slot's reference.
   */
  function GetStorage(g: Globals): (res: (Globals, nat))
    requires Valid(g)
    ensures Valid(res.0)
    ensures res.0.slot == Some(res.1)
    ensures g.slot.Some? ==> res == (g, g.slot.value)
    ensures g.slot.None? ==> res.1 !in g.heap && IsEmpty(res.0.heap[res.1])
    ensures g.slot.None? ==> res.0.heap == g.heap[res.1 := NewStorage()]
  {
    match g.slot
    case Some(r) => (g, r)
    case None =>
      var r := g.nextRef;
      (Globals(Some(r), g.heap[r := NewStorage()], r + 1), r)
  }

  /** Two consecutive calls return the identical instance, and the second changes nothing. */
  lemma GetStorageStable(g: Globals)
    requires Valid(g)
    ensures GetStorage(GetStorage(g).0).1 == GetStorage(g).1
    ensures GetStorage(GetStorage(g).0).0 == GetStorage(g).0
  {
  }
}

=== FILE: resolve_builder.dfy ===
/**
 * Resolve descriptor building: resolvers outer, resolves inner, joined on
 * `target`, with validators and rules joined on `(target, methodName)`;
 * then one descriptor per method of every literal module resolver.
 */
module ResolveBuilder {
  import opened Wrappers
  import opened Types
  import opened MetadataArgs
  import opened Metadata
  import opened Seqs
  import ActionBuilder

  /** The GraphQL type name of a registered resolver, and the entity it is bound to. */
  function ResolverTypeName(naming: Naming, n: ResolverName): (r: (string, Option<EntityRef>))
    ensures n.EntityClass? ==> r == (EntityName(naming, n.entity), Some(EntityClassRef(n.entity)))
    ensures n.TypeName? ==> r == (n.typeName, None)
  {
    match n
    case EntityClass(cls) => (EntityName(naming, cls), Some(EntityClassRef(cls)))
    case TypeName(t) => (t, None)
  }

  /** `createFromMetadataArgs`, with the joins applied. */
  function FromArgs(naming: Naming, x: ResolverArgs, y: ResolveArgs, s: Storage): (d: ResolveMetadata)
    ensures d.target == x.target && d.methodName == y.methodName
    ensures (d.name, d.entity) == ResolverTypeName(naming, x.name)
    ensures d.resolvingPropertyName == OrElse(y.name, y.methodName)
    ensures d.dataLoader <==> y.dataLoader == Some(true)
    ensures d.validators == ActionBuilder.ValidatorsFor(s.validators, y.target, y.methodName)
    ensures d.authorizes == ActionBuilder.AuthorizesFor(s.authorizes, y.target, y.methodName)
  {
    var (name, entity) := ResolverTypeName(naming, x.name);
    ResolveMetadata(x.target, name, entity, y.methodName, OrElse(y.name, y.methodName),
                    y.dataLoader == Some(true),
                    ActionBuilder.ValidatorsFor(s.validators, y.target, y.methodName),
                    ActionBuilder.AuthorizesFor(s.authorizes, y.target, y.methodName))
  }

  /** The descriptor of a resolve registered on resolver `x`'s class; nothing for any other. */
  function ResolveOf(naming: Naming, x: ResolverArgs, s: Storage): ResolveArgs -> Option<ResolveMetadata> {
    (y: ResolveArgs) => if y.target == x.target then Some(FromArgs(naming, x, y, s)) else None
  }

  /** Resolvers outer, resolves inner. */
  function FromResolvers(naming: Naming, xs: seq<ResolverArgs>, s: Storage): seq<ResolveMetadata>
    decreases |xs|
  {
    if xs == [] then [] else Collect(s.resolves, ResolveOf(naming, xs[0], s)) + FromResolvers(naming, xs[1..], s)
  }

  /** The registry half of `build`. */
  function RegistryDescriptors(naming: Naming, s: Storage): seq<ResolveMetadata> {
    FromResolvers(naming, s.resolvers, s)
  }

  /** The type name and entity of a module resolver's model. */
  function ModelTypeName(naming: Naming, m: ModelRef): (r: (string, Option<EntityRef>))
    ensures m.ModelClass? ==> r == (EntityName(naming, m.cls), Some(EntityClassRef(m.cls)))
    ensures m.ModelSchema? ==> r == (m.schemaName, Some(EntitySchemaRef(m.schemaName)))
    ensures m.ModelName? ==> r == (m.typeName, None)
  {
    match m
    case ModelClass(cls) => (EntityName(naming, cls), Some(EntityClassRef(cls)))
    case ModelSchema(n) => (n, Some(EntitySchemaRef(n)))
    case ModelName(n) => (n, None)
  }

  /** `createFromModuleResolver` for one method entry. */
  function FromModuleMethod(naming: Naming, r: ModuleResolver, e: MethodEntry): (d: ResolveMetadata)
    ensures d.target == r.resolver
    ensures (d.name, d.entity) == ModelTypeName(naming, r.model)
    ensures e.MethodString? ==>
      && d.methodName == e.methodName && d.resolvingPropertyName == e.methodName
      && !d.dataLoader && d.validators == [] && d.authorizes == []
    ensures e.MethodObject? ==>
      && d.methodName == e.spec.methodName
      && d.resolvingPropertyName == OrElse(e.spec.name, e.spec.methodName)
      && (d.dataLoader <==> e.spec.many == Some(true))
      && d.validators == e.spec.validators.GetOr([])
      && d.authorizes == e.spec.authorizes.GetOr([])
  {
    var (name, entity) := ModelTypeName(naming, r.model);
    match e
    case MethodString(m) => ResolveMetadata(r.resolver, name, entity, m, m, false, [], [])
    case MethodObject(spec) =>
      ResolveMetadata(r.resolver, name, entity, spec.methodName, OrElse(spec.name, spec.methodName),
                      spec.many == Some(true), spec.validators.GetOr([]), spec.authorizes.GetOr([]))
  }

  /** One descriptor per method of a literal resolver entry; nothing for classes and globs. */
  function EntryDescriptors(naming: Naming, e: ResolverEntry): seq<ResolveMetadata> {
    match e
    case ResolverObject(r) => Collect(r.methods, (m: MethodEntry) => Some(FromModuleMethod(naming, r, m)))
    case _ => []
  }

  /** The `resolvers` list of a module, empty when absent. */
  function Entries(m: GraphModule): seq<ResolverEntry> {
    m.resolvers.GetOr([])
  }

  /** Descriptors of one module's entries, in entry order. */
  function ModuleEntriesDescriptors(naming: Naming, es: seq<ResolverEntry>): seq<ResolveMetadata>
    decreases |es|
  {
    if es == [] then [] else EntryDescriptors(naming, es[0]) + ModuleEntriesDescriptors(naming, es[1..])
  }

  /** The module half of `build`, in module order. */
  function ModuleDescriptors(naming: Naming, ms: seq<GraphModule>): seq<ResolveMetadata>
    decreases |ms|
  {
    if ms == [] then [] else ModuleEntriesDescriptors(naming, Entries(ms[0])) + ModuleDescriptors(naming, ms[1..])
  }

  /** `build(modules)`: every registry descriptor, then every module-declared one. */
  function Build(naming: Naming, ms: seq<GraphModule>, s: Storage): (r: seq<ResolveMetadata>)
    ensures |r| == |RegistryDescriptors(naming, s)| + |ModuleDescriptors(naming, ms)|
    ensures r[..|RegistryDescriptors(naming, s)|] == RegistryDescriptors(naming, s)
    ensures r[|RegistryDescriptors(naming, s)|..] == ModuleDescriptors(naming, ms)
  {
    RegistryDescriptors(naming, s) + ModuleDescriptors(naming, ms)
  }

  // ---------------------------------------------------------------------------
  // Properties
  // ---------------------------------------------------------------------------

  /** Resolve `j` is registered on the class of resolver `i` and `d` is their descriptor. */
  predicate JoinAt(naming: Naming, xs: seq<ResolverArgs>, s: Storage, i: int, j: int, d: ResolveMetadata) {
    0 <= i < |xs| && 0 <= j < |s.resolves| && s.resolves[j].target == xs[i].target
    && d == FromArgs(naming, xs[i], s.resolves[j], s)
  }

  /**
   * The registry half holds exactly the descriptors of resolves whose
   * target is the class of some registered resolver.
   */
  lemma {:induction false} RegistryMembership(naming: Naming, xs: seq<ResolverArgs>, s: Storage, d: ResolveMetadata)
    ensures d in FromResolvers(naming, xs, s) <==> exists i, j :: JoinAt(naming, xs, s, i, j, d)
    decreases |xs|
  {
    if xs != [] {
      RegistryMembership(naming, xs[1..], s, d);
      CollectMembership(s.resolves, ResolveOf(naming, xs[0], s), d);
      if d in FromResolvers(naming, xs[1..], s) {
        var i, j :| JoinAt(naming, xs[1..], s, i, j, d);
        assert xs[i + 1] == xs[1..][i];
        assert JoinAt(naming, xs, s, i + 1, j, d);
      }
      if d in Collect(s.resolves, ResolveOf(naming, xs[0], s)) {
        var j :| 0 <= j < |s.resolves| && ResolveOf(naming, xs[0], s)(s.resolves[j]) == Some(d);
        assert JoinAt(naming, xs, s, 0, j, d);
      }
      if exists i, j :: JoinAt(naming, xs, s, i, j, d) {
        var i, j :| JoinAt(naming, xs, s, i, j, d);
        if i > 0 {
          assert xs[1..][i - 1] == xs[i];
          assert JoinAt(naming, xs[1..], s, i - 1, j, d);
        } else {
          assert ResolveOf(naming, xs[0], s)(s.resolves[j]) == Some(d);
        }
      }
    }
  }

  /** Resolvers registered later contribute after all earlier resolvers. */
  lemma {:induction false} FromResolversConcat(naming: Naming, a: seq<ResolverArgs>, b: seq<ResolverArgs>, s: Storage)
    ensures FromResolvers(naming, a + b, s) == FromResolvers(naming, a, s) + FromResolvers(naming, b, s)
    decreases |a|
  {
    if a == [] {
      assert a + b == b;
    } else {
      assert (a + b)[1..] == a[1..] + b;
      FromResolversConcat(naming, a[1..], b, s);
    }
  }

  /** A literal resolver yields exactly one descriptor per method, in method order. */
  lemma OnePerMethod(naming: Naming, r: ModuleResolver)
    ensures |EntryDescriptors(naming, ResolverObject(r))| == |r.methods|
    ensures forall k :: 0 <= k < |r.methods| ==>
      EntryDescriptors(naming, ResolverObject(r))[k] == FromModuleMethod(naming, r, r.methods[k])
  {
    var f := (m: MethodEntry) => Some(FromModuleMethod(naming, r, m));
    CollectAll(r.methods, f);
  }

  /** Literal resolvers of modules listed later contribute after earlier modules'. */
  lemma {:induction false} ModuleDescriptorsConcat(naming: Naming, a: seq<GraphModule>, b: seq<GraphModule>)
    ensures ModuleDescriptors(naming, a + b) == ModuleDescriptors(naming, a) + ModuleDescriptors(naming, b)
    decreases |a|
  {
    if a == [] {
      assert a + b == b;
    } else {
      assert (a + b)[1..] == a[1..] + b;
      ModuleDescriptorsConcat(naming, a[1..], b);
    }
  }

  /** Method `k` of the literal resolver at entry `j` yields `d`. */
  predicate EntryMethodAt(naming: Naming, es: seq<ResolverEntry>, j: int, k: int, d: ResolveMetadata) {
    0 <= j < |es| && es[j].ResolverObject? && 0 <= k < |es[j].resolver.methods|
    && d == FromModuleMethod(naming, es[j].resolver, es[j].resolver.methods[k])
  }

  /** Method `k` of the literal resolver at entry `j` of module `i` yields `d`. */
  predicate MethodAt(naming: Naming, ms: seq<GraphModule>, i: int, j: int, k: int, d: ResolveMetadata) {
    0 <= i < |ms| && EntryMethodAt(naming, Entries(ms[i]), j, k, d)
  }

  /** Entries listed later contribute after all earlier entries of the same module. */
  lemma {:induction false} ModuleEntriesDescriptorsConcat(naming: Naming, a: seq<ResolverEntry>, b: seq<ResolverEntry>)
    ensures ModuleEntriesDescriptors(naming, a + b) == ModuleEntriesDescriptors(naming, a) + ModuleEntriesDescriptors(naming, b)
    decreases |a|
  {
    if a == [] {
      assert a + b == b;
    } else {
      assert (a + b)[1..] == a[1..] + b;
      ModuleEntriesDescriptorsConcat(naming, a[1..], b);
    }
  }

  /** The descriptors of one entry are exactly those of the methods of a literal resolver. */
  lemma EntryMembership(naming: Naming, e: ResolverEntry, d: ResolveMetadata)
    ensures d in EntryDescriptors(naming, e) <==>
      e.ResolverObject? && exists k :: 0 <= k < |e.resolver.methods| && d == FromModuleMethod(naming, e.resolver, e.resolver.methods[k])
  {
    if e.ResolverObject? {
      OnePerMethod(naming, e.resolver);
    }
  }

  /** A descriptor of one module's entries comes from a method of one of its literal resolvers, and each such method yields one. */
  lemma {:induction false} EntriesMembership(naming: Naming, es: seq<ResolverEntry>, d: ResolveMetadata)
    ensures d in ModuleEntriesDescriptors(naming, es) <==> exists j, k :: EntryMethodAt(naming, es, j, k, d)
    decreases |es|
  {
    if es != [] {
      EntriesMembership(naming, es[1..], d);
      EntryMembership(naming, es[0], d);
      if d in ModuleEntriesDescriptors(naming, es[1..]) {
        var j, k :| EntryMethodAt(naming, es[1..], j, k, d);
        assert es[j + 1] == es[1..][j];
        assert EntryMethodAt(naming, es, j + 1, k, d);
      }
      if d in EntryDescriptors(naming, es[0]) {
        var k :| 0 <= k < |es[0].resolver.methods| && d == FromModuleMethod(naming, es[0].resolver, es[0].resolver.methods[k]);
        assert EntryMethodAt(naming, es, 0, k, d);
      }
      if exists j, k :: EntryMethodAt(naming, es, j, k, d) {
        var j, k :| EntryMethodAt(naming, es, j, k, d);
        if j > 0 {
          assert es[1..][j - 1] == es[j];
          assert EntryMethodAt(naming, es[1..], j - 1, k, d);
        }
      }
    }
  }

  /**
   * The module half holds exactly the descriptors of the methods of the
   * literal resolvers that modules declare.
   */
  lemma {:induction false} ModuleMembership(naming: Naming, ms: seq<GraphModule>, d: ResolveMetadata)
    ensures d in ModuleDescriptors(naming, ms) <==> exists i, j, k :: MethodAt(naming, ms, i, j, k, d)
    decreases |ms|
  {
    if ms != [] {
      ModuleMembership(naming, ms[1..], d);
      EntriesMembership(naming, Entries(ms[0]), d);
      if d in ModuleDescriptors(naming, ms[1..]) {
        var i, j, k :| MethodAt(naming, ms[1..], i, j, k, d);
        assert ms[i + 1] == ms[1..][i];
        assert MethodAt(naming, ms, i + 1, j, k, d);
      }
      if d in ModuleEntriesDescriptors(naming, Entries(ms[0])) {
        var j, k :| EntryMethodAt(naming, Entries(ms[0]), j, k, d);
        assert MethodAt(naming, ms, 0, j, k, d);
      }
      if exists i, j, k :: MethodAt(naming, ms, i, j, k, d) {
        var i, j, k :| MethodAt(naming, ms, i, j, k, d);
        if i > 0 {
          assert ms[1..][i - 1] == ms[i];
          assert MethodAt(naming, ms[1..], i - 1, j, k, d);
        }
      }
    }
  }

  /** Class and glob entries of a module produce no descriptor. */
  lemma {:induction false} NoDescriptorFromClassesOrGlobs(naming: Naming, es: seq<ResolverEntry>)
    requires forall i :: 0 <= i < |es| ==> !es[i].ResolverObject?
    ensures ModuleEntriesDescriptors(naming, es) == []
    decreases |es|
  {
    if es != [] {
      assert !es[0].ResolverObject?;
      NoDescriptorFromClassesOrGlobs(naming, es[1..]);
    }
  }
}

=== FILE: samples.dfy ===
/**
 * The sample applications' argument validators and field resolvers, and
 * one of them plugged into the executor: a `likes` call whose `owner` the
 * validator rejects never reaches the resolver method.
 */
module Samples {
  import opened Wrappers
  import opened Types
  import opened Js
  import opened Metadata
  import opened Executor
  import ExecutorProps

  /**
   * A GraphQL argument as a validator receives it: left out (`undefined`),
   * sent as an explicit `null`, or given a value of its declared type.
   */
  datatype Arg<T> = Omitted | ExplicitNull | Given(value: T)

  // ---------------------------------------------------------------------------
  // PostSaveArgsValidator
  // ---------------------------------------------------------------------------

  /** The arguments of `savePost`. */
  datatype PostSaveArgs = PostSaveArgs(title: Arg<string>, text: Arg<string>)

  const TitleUndefined := Error("Post title must be defined.")
  const TitleTooShort := Error("Post title is too short. Minimal length is 10 characters.")
  const TitleTooLong := Error("Post title is too long. Maximal length is 200 characters.")
  const TextUndefined := Error("Post text must be defined.")
  const TextTooShort := Error("Post text is too short. Minimal length is 100 characters.")
  const TextTooLong := Error("Post text is too long. Maximal length is 2000 characters.")

  /** The `TypeError` thrown by reading `length` of `null`; only `null` passes `=== undefined` and then throws it. */
  const NullLength := Error("Cannot read property 'length' of null")

  /** The error a string argument alone causes: absent, `null`, or a length outside `lo..hi`. */
  function StringError(a: Arg<string>, lo: nat, hi: nat, undef: Error, short: Error, long: Error): Option<Error> {
    match a
    case Omitted => Some(undef)
    case ExplicitNull => Some(NullLength)
    case Given(t) =>
      if |t| < lo then Some(short)
      else if |t| > hi then Some(long)
      else None
  }

  /** The error `title` alone causes, if any. */
  function TitleError(title: Arg<string>): Option<Error> {
    StringError(title, 10, 200, TitleUndefined, TitleTooShort, TitleTooLong)
  }

  /** The error `text` alone causes, if any. */
  function TextError(text: Arg<string>): Option<Error> {
    StringError(text, 100, 2000, TextUndefined, TextTooShort, TextTooLong)
  }

  /** Both fields given, the title 10 to 200 characters long and the text 100 to 2000. */
  predicate SaveArgsValid(args: PostSaveArgs) {
    && args.title.Given? && 10 <= |args.title.value| <= 200
    && args.text.Given? && 100 <= |args.text.value| <= 2000
  }

  /** `PostSaveArgsValidator.validate`: the checks in order, the first failing one throws. */
  function ValidatePostSave(args: PostSaveArgs): (r: Result<(), Error>)
    ensures r.Success? <==> SaveArgsValid(args)
    ensures args.title.Omitted? ==> r == Failure(TitleUndefined)
    ensures args.title.ExplicitNull? ==> r == Failure(NullLength)
    ensures args.title.Given? && |args.title.value| < 10 ==> r == Failure(TitleTooShort)
    ensures args.title.Given? && |args.title.value| > 200 ==> r == Failure(TitleTooLong)
    ensures TitleError(args.title).None? && args.text.Omitted? ==> r == Failure(TextUndefined)
    ensures TitleError(args.title).None? && args.text.ExplicitNull? ==> r == Failure(NullLength)
    ensures TitleError(args.title).None? && args.text.Given? && |args.text.value| < 100 ==> r == Failure(TextTooShort)
    ensures TitleError(args.title).None? && args.text.Given? && |args.text.value| > 2000 ==> r == Failure(TextTooLong)
  {
    match TitleError(args.title)
    case Some(e) => Failure(e)
    case None =>
      match TextError(args.text)
      case Some(e) => Failure(e)
      case None => Success(())
  }

  /** A bad title is reported whatever the text is: title errors come first. */
  lemma TitleErrorsFirst(title: Arg<string>, text1: Arg<string>, text2: Arg<string>)
    requires TitleError(title).Some?
    ensures ValidatePostSave(PostSaveArgs(title, text1)) == ValidatePostSave(PostSaveArgs(title, text2))
    ensures ValidatePostSave(PostSaveArgs(title, text1)).error in {TitleUndefined, NullLength, TitleTooShort, TitleTooLong}
  {
  }

  // ---------------------------------------------------------------------------
  // PostsArgsValidator
  // ---------------------------------------------------------------------------

  /** The arguments of `posts`. */
  datatype PostsArgs = PostsArgs(limit: Arg<int>, offset: Arg<int>, sortBy: Arg<string>)

  const LimitTooLarge := Error("Limit cannot be more then 100.")
  const LimitTooSmall := Error("Limit cannot be less then 1.")
  const OffsetNegative := Error("Offset cannot be less then zero.")
  const BadSort := Error("Sort can only be by name or by last")

  /** A defined numeric argument in a JavaScript relational comparison: `null` compares as 0. */
  function AsNumber(a: Arg<int>): int
    requires !a.Omitted?
  {
    if a.ExplicitNull? then 0 else a.value
  }

  /** JavaScript truthiness of a string argument: given and non-empty. */
  predicate TruthyArg(a: Arg<string>) {
    a.Given? && a.value != ""
  }

  /** A sort key the validator lets through: absent, `null`, empty, `name` or `last`. */
  predicate SortAllowed(sortBy: Arg<string>) {
    match sortBy
    case Given(s) => s == "" || s == "name" || s == "last"
    case _ => true
  }

  /** A limit the validator lets through: absent, or 1 to 100; `null` is too small. */
  predicate LimitAllowed(limit: Arg<int>) {
    match limit
    case Omitted => true
    case ExplicitNull => false
    case Given(n) => 1 <= n <= 100
  }

  /** An offset the validator lets through: absent, `null`, or not negative. */
  predicate OffsetAllowed(offset: Arg<int>) {
    offset.Given? ==> offset.value >= 0
  }

  /** `PostsArgsValidator.validate`. */
  function ValidatePosts(args: PostsArgs): (r: Result<(), Error>)
    ensures r.Success? <==> LimitAllowed(args.limit) && OffsetAllowed(args.offset) && SortAllowed(args.sortBy)
    ensures args.limit.Given? && args.limit.value > 100 ==> r == Failure(LimitTooLarge)
    ensures args.limit.Given? && args.limit.value < 1 ==> r == Failure(LimitTooSmall)
    ensures args.limit.ExplicitNull? ==> r == Failure(LimitTooSmall)
    ensures LimitAllowed(args.limit) && !OffsetAllowed(args.offset) ==> r == Failure(OffsetNegative)
    ensures LimitAllowed(args.limit) && OffsetAllowed(args.offset) && r.Failure? ==> r.error == BadSort
    ensures args == PostsArgs(Omitted, Omitted, Omitted) ==> r.Success?
  {
    if !args.limit.Omitted? && AsNumber(args.limit) > 100 then Failure(LimitTooLarge)
    else if !args.limit.Omitted? && AsNumber(args.limit) < 1 then Failure(LimitTooSmall)
    else if !args.offset.Omitted? && AsNumber(args.offset) < 0 then Failure(OffsetNegative)
    else if TruthyArg(args.sortBy) && args.sortBy.value != "name" && args.sortBy.value != "last" then Failure(BadSort)
    else Success(())
  }

  /** An empty sort key is as good as none: only a truthy one is checked. */
  lemma EmptySortAccepted(limit: Arg<int>, offset: Arg<int>)
    ensures ValidatePosts(PostsArgs(limit, offset, Given(""))) == ValidatePosts(PostsArgs(limit, offset, Omitted))
  {
  }

  /** A `null` offset or sort key is let through exactly as an absent one. */
  lemma NullOffsetOrSortAsAbsent(limit: Arg<int>, offset: Arg<int>, sortBy: Arg<string>)
    ensures ValidatePosts(PostsArgs(limit, ExplicitNull, sortBy)) == ValidatePosts(PostsArgs(limit, Omitted, sortBy))
    ensures ValidatePosts(PostsArgs(limit, offset, ExplicitNull)) == ValidatePosts(PostsArgs(limit, offset, Omitted))
  {
  }

  // ---------------------------------------------------------------------------
  // PostLikesArgsValidator (the TypeScript and JavaScript samples state the same rule)
  // ---------------------------------------------------------------------------

  const OwnerError := Error("Owner can be only \"my\" or \"all\".")

  /**
   * `PostLikesArgsValidator.validate` on the `owner` argument, with
   * JavaScript's strict inequality; the JavaScript sample states the same
   * rule. Exactly three owners are accepted, none, `"my"` and `"all"`; any
   * other value, of any type, is not.
   */
  function ValidatePostLikes(owner: JsValue): (r: Result<(), Error>)
    ensures r.Success? <==> owner == Undefined || owner == Str("my") || owner == Str("all")
    ensures r.Failure? ==> r.error == OwnerError
  {
    if owner != Undefined && owner != Str("my") && owner != Str("all") then Failure(OwnerError) else Success(())
  }

  // ---------------------------------------------------------------------------
  // PostResolver.likes and PhotoResolver.addedByCurrentUser
  // ---------------------------------------------------------------------------

  /** `likes(post, args)`; JavaScript numbers are modelled as integers. */
  function Likes(postId: int, owner: JsValue): int {
    if owner == Str("all") then postId * 10 else 1
  }

  /**
   * On every owner the validator accepts, `likes` counts ten per id unit for
   * `"all"` and one otherwise; it reads nothing but the id and the owner.
   */
  lemma LikesOnValidOwners(postId: int, owner: JsValue)
    requires ValidatePostLikes(owner).Success?
    ensures owner == Str("all") ==> Likes(postId, owner) == postId * 10
    ensures owner == Undefined || owner == Str("my") ==> Likes(postId, owner) == 1
    ensures owner != Str("all") ==> owner == Undefined || owner == Str("my")
  {
  }

  /** The request's current user, when one is logged in. */
  datatype CurrentUser = CurrentUser(id: int)

  /** `addedByCurrentUser(photo)`. */
  function AddedByCurrentUser(authorId: int, currentUser: Option<CurrentUser>): (r: bool)
    ensures r ==> currentUser.Some?
    ensures currentUser.Some? ==> (r <==> authorId == currentUser.value.id)
  {
    if currentUser.None? then false else authorId == currentUser.value.id
  }

  /** A photo is marked as theirs for at most one of two users with different ids. */
  lemma AddedByOneUser(authorId: int, u: CurrentUser, v: CurrentUser)
    requires u.id != v.id
    ensures !(AddedByCurrentUser(authorId, Some(u)) && AddedByCurrentUser(authorId, Some(v)))
  {
  }

  // ---------------------------------------------------------------------------
  // PostResolver.likes behind the executor
  // ---------------------------------------------------------------------------

  const PostClass := ClassRef(1, "Post")
  const PostResolverClass := ClassRef(2, "PostResolver")
  const PostLikesValidatorClass := ClassRef(3, "PostLikesArgsValidator")

  /** The descriptor `@Resolve() @ArgsValidator(PostLikesArgsValidator) likes` on `@Resolver(Post)` yields. */
  const LikesDescriptor: Descriptor :=
    ResolveDescriptor(ResolveMetadata(PostResolverClass, "Post", Some(EntityClassRef(PostClass)),
                                      "likes", "likes", false, [PostLikesValidatorClass], []))

  /** The container's validators: the sample's one checks `args.owner`, any other accepts. */
  function SampleValidate(cls: ClassRef, c: Container, args: JsValue): Result<JsValue, Error> {
    if cls == PostLikesValidatorClass then
      match ValidatePostLikes(Property(args, "owner"))
      case Success(_) => Success(Undefined)
      case Failure(e) => Failure(e)
    else Success(Undefined)
  }

  /** `likes` on the parent post's numeric `id`; a parent without one is outside the sample. */
  function SampleInvoke(cls: ClassRef, methodName: string, call: Call<JsValue>, c: Container): Result<JsValue, Error> {
    if cls == PostResolverClass && methodName == "likes" && call.ObjCall? && Property(call.obj, "id").Num? then
      Success(Num(Likes(Property(call.obj, "id").n, Property(call.args, "owner"))))
    else Success(Undefined)
  }

  /**
   * With the sample's validator and resolver in the container, a `likes`
   * call whose owner is rejected never invokes the method and, once the
   * container is set up, fails with the validator's error; an accepted
   * owner gets the resolver's count.
   */
  lemma RejectedOwnerNeverReachesLikes(env: Env<JsValue>, action: Action<JsValue>, c: Container)
    requires env.validate == SampleValidate && env.invoke == SampleInvoke
    requires action.metadata == LikesDescriptor
    ensures var r := ExecuteResolver(env, action, c);
      var accepted := ValidatePostLikes(Property(action.args, "owner")).Success?;
      var prepared := ExecutorProps.Prepared(env, action, c).Success?;
      && (!accepted ==> !ExecutorProps.HasStage(r.trace, 5))
      && (!accepted && prepared ==> r.outcome == Failure(OwnerError))
      && (accepted && prepared && Property(action.obj, "id").Num? ==>
            r.outcome == Success(Num(Likes(Property(action.obj, "id").n, Property(action.args, "owner")))))
  {
    var owner := Property(action.args, "owner");
    ExecutorProps.PipelineInvokes(env, action, c);
    var p := ExecutorProps.Prepared(env, action, c);
    if p.Success? {
      var check := ValidatorCheck(env, p.value, action.args);
      var vs := Validators(action.metadata);
      assert vs == [PostLikesValidatorClass];
      assert check(vs[0]) == SampleValidate(PostLikesValidatorClass, p.value, action.args);
      assert check(vs[0]).Success? <==> ValidatePostLikes(owner).Success?;
      assert ExecutorProps.RulesPass(env, action, p.value);
      if ValidatePostLikes(owner).Failure? {
        assert !ExecutorProps.AllPass(vs, check);
        ExecutorProps.ValidationFailureStops(env, action, c);
      } else {
        assert forall k :: 0 <= k < |vs| ==> check(vs[k]).Success?;
        assert ExecutorProps.ValidatorsPass(env, action, p.value);
      }
    }
  }
}

=== FILE: schema_builder.dfy ===
/**
 * The decision logic of the schema builder: which modules take part, which
 * schema files are loaded, and which resolver the resolver map holds under
 * each type and field. Building the executable schema itself, loading the
 * schema files and the ORM connection are outside the model.
 */
module SchemaBuilder {
  import opened Wrappers
  import opened Types
  import opened Js
  import opened MetadataArgs
  import opened Metadata
  import opened Seqs
  import ActionBuilder
  import ResolveBuilder
  import opened Executor

  // ---------------------------------------------------------------------------
  // Modules and schema files
  // ---------------------------------------------------------------------------

  /** An entry of `options.modules`: a module class (instantiated through the container) or an instance. */
  datatype ModuleSource = ModuleClass(cls: ClassRef) | ModuleInstance(instance: GraphModule)

  /** The schema builder options the core reads; `root` is the options object seen as a module. */
  datatype BuilderOptions = BuilderOptions(
    root: GraphModule,
    modules: Option<seq<ModuleSource>>,
    subscriptionIterator: bool,
    naming: Naming,
    customResolvers: Option<ResolverMap>)

  function ModuleOf(instantiate: ClassRef -> GraphModule, m: ModuleSource): GraphModule {
    match m
    case ModuleClass(cls) => instantiate(cls)
    case ModuleInstance(m) => m
  }

  /** `buildModules`: the options themselves, then every configured module in order. */
  function BuildModules(o: BuilderOptions, instantiate: ClassRef -> GraphModule): (ms: seq<GraphModule>)
    ensures |ms| == 1 + |o.modules.GetOr([])|
    ensures ms[0] == o.root
    ensures forall i :: 0 <= i < |o.modules.GetOr([])| ==>
      ms[i + 1] == (match o.modules.GetOr([])[i]
                    case ModuleClass(cls) => instantiate(cls)
                    case ModuleInstance(m) => m)
  {
    var sources := o.modules.GetOr([]);
    [o.root] + seq(|sources|, i requires 0 <= i < |sources| => ModuleOf(instantiate, sources[i]))
  }

  /** The `schemas` of each module, empty when absent. */
  function SchemaLists(ms: seq<GraphModule>): (r: seq<seq<string>>)
    ensures |r| == |ms| && forall i :: 0 <= i < |ms| ==> r[i] == ms[i].schemas.GetOr([])
  {
    seq(|ms|, i requires 0 <= i < |ms| => ms[i].schemas.GetOr([]))
  }

  const NoSchemasError := Error("You must provide \"schemas\" in the configuration options where from GraphQL schemas must be loaded and used.")

  /**
   * The schema paths of all modules, concatenated in module order; no path
   * at all is an error.
   */
  function LoadSchemaPaths(ms: seq<GraphModule>): (r: Result<seq<string>, Error>)
    ensures r.Failure? <==> forall i :: 0 <= i < |ms| ==> ms[i].schemas.GetOr([]) == []
    ensures r.Failure? ==> r.error == NoSchemasError
    ensures r.Success? ==> |r.value| > 0
    ensures r.Success? ==> forall p :: p in r.value <==> exists i :: 0 <= i < |ms| && p in ms[i].schemas.GetOr([])
    ensures r.Success? ==> r.value == Flatten(SchemaLists(ms))
  {
    var paths := Flatten(SchemaLists(ms));
    FlattenEmpty(SchemaLists(ms));
    forall p ensures p in paths <==> exists i :: 0 <= i < |ms| && p in ms[i].schemas.GetOr([]) {
      FlattenMembership(SchemaLists(ms), p);
    }
    if |paths| == 0 then Failure(NoSchemasError) else Success(paths)
  }

  /** Paths of modules listed later come after those of earlier modules. */
  lemma SchemaPathsOrder(a: seq<GraphModule>, b: seq<GraphModule>)
    ensures Flatten(SchemaLists(a + b)) == Flatten(SchemaLists(a)) + Flatten(SchemaLists(b))
  {
    assert SchemaLists(a + b) == SchemaLists(a) + SchemaLists(b);
    FlattenConcat(SchemaLists(a), SchemaLists(b));
  }

  /** `getResolverType`: the root type of each action type. */
  function ResolverType(kind: ActionType): (t: string)
    ensures t == "Query" <==> kind == Query
    ensures t == "Mutation" <==> kind == Mutation
    ensures t == "Subscription" <==> kind == Subscription
  {
    match kind
    case Query => "Query"
    case Mutation => "Mutation"
    case Subscription => "Subscription"
  }

  // ---------------------------------------------------------------------------
  // The resolver map
  // ---------------------------------------------------------------------------

  /** What a type entry of the resolver map was created as. */
  datatype Base = PlainObject | DateScalar | UploadScalar | UserObject(id: nat)

  /** A field resolver: what it runs when GraphQL calls it. */
  datatype Field =
    | ActionField(action: ActionMetadata)
    | SubscriptionField(action: ActionMetadata, trigger: string)
    | RelationField(typeName: string, property: string)
    | ResolveField(resolve: ResolveMetadata)
    | UserField(id: nat)

  datatype TypeEntry = TypeEntry(base: Base, fields: map<string, Field>)

  /** The resolvers object handed to the schema: type name to field resolvers. */
  type ResolverMap = map<string, TypeEntry>

  /** One write to the resolver map: create a type entry when missing, or also set one field of it. */
  datatype Op = Touch(typeName: string) | Put(typeName: string, key: string, field: Field)

  /** `if (!resolvers[t]) resolvers[t] = {}`, then the field assignment of a `Put`. */
  function Apply(rm: ResolverMap, op: Op): ResolverMap {
    var e := if op.typeName in rm then rm[op.typeName] else TypeEntry(PlainObject, map[]);
    match op
    case Touch(t) => rm[t := e]
    case Put(t, k, f) => rm[t := e.(fields := e.fields[k := f])]
  }

  /** The writes applied in order. */
  function ApplyAll(rm: ResolverMap, ops: seq<Op>): ResolverMap
    decreases |ops|
  {
    if ops == [] then rm else ApplyAll(Apply(rm, ops[0]), ops[1..])
  }

  /** The field resolver under `t.k`, if any. */
  function FieldAt(rm: ResolverMap, t: string, k: string): Option<Field> {
    if t in rm && k in rm[t].fields then Some(rm[t].fields[k]) else None
  }

  /** The field of the last write to `t.k`, read from the end; `d` when there is none. */
  function LastPut(ops: seq<Op>, t: string, k: string, d: Option<Field>): Option<Field>
    decreases |ops|
  {
    if ops == [] then d
    else
      var last := ops[|ops| - 1];
      if last.Put? && last.typeName == t && last.key == k then Some(last.field)
      else LastPut(ops[..|ops| - 1], t, k, d)
  }

  lemma {:induction false} LastPutConcat(a: seq<Op>, b: seq<Op>, t: string, k: string, d: Option<Field>)
    ensures LastPut(a + b, t, k, d) == LastPut(b, t, k, LastPut(a, t, k, d))
    decreases |b|
  {
    if b == [] {
      assert a + b == a;
    } else {
      assert (a + b)[..|a + b| - 1] == a + b[..|b| - 1];
      assert (a + b)[|a + b| - 1] == b[|b| - 1];
      LastPutConcat(a, b[..|b| - 1], t, k, d);
    }
  }

  /** Later writes override earlier ones: a field holds what the last write to it put there. */
  lemma {:induction false} LastWriteWins(rm: ResolverMap, ops: seq<Op>, t: string, k: string)
    ensures FieldAt(ApplyAll(rm, ops), t, k) == LastPut(ops, t, k, FieldAt(rm, t, k))
    decreases |ops|
  {
    if ops != [] {
      LastWriteWins(Apply(rm, ops[0]), ops[1..], t, k);
      assert ops == [ops[0]] + ops[1..];
      LastPutConcat([ops[0]], ops[1..], t, k, FieldAt(rm, t, k));
      assert LastPut([ops[0]], t, k, FieldAt(rm, t, k)) == FieldAt(Apply(rm, ops[0]), t, k) by {
        assert [ops[0]][..0] == [];
      }
    }
  }

  /** The type entries after the writes: those there before, plus every type written to. */
  lemma {:induction false} ApplyAllKeys(rm: ResolverMap, ops: seq<Op>, t: string)
    ensures t in ApplyAll(rm, ops) <==> t in rm || exists i :: 0 <= i < |ops| && ops[i].typeName == t
    ensures t in rm ==> ApplyAll(rm, ops)[t].base == rm[t].base
    decreases |ops|
  {
    if ops != [] {
      ApplyAllKeys(Apply(rm, ops[0]), ops[1..], t);
      if exists i :: 0 <= i < |ops| && ops[i].typeName == t {
        var i :| 0 <= i < |ops| && ops[i].typeName == t;
        if i > 0 { assert ops[1..][i - 1] == ops[i]; }
      }
      if exists i :: 0 <= i < |ops[1..]| && ops[1..][i].typeName == t {
        var i :| 0 <= i < |ops[1..]| && ops[1..][i].typeName == t;
        assert ops[i + 1] == ops[1..][i];
      }
    }
  }

  /** The framework's `Date` and `Upload` scalars. */
  function Defaults(): (rm: ResolverMap)
    ensures rm.Keys == {"Date", "Upload"}
    ensures rm["Date"].base == DateScalar && rm["Upload"].base == UploadScalar
  {
    map["Date" := TypeEntry(DateScalar, map[]), "Upload" := TypeEntry(UploadScalar, map[])]
  }

  // ---------------------------------------------------------------------------
  // Controller, relation and custom resolvers
  // ---------------------------------------------------------------------------

  /** Subscriptions are keyed by `name || methodName`, queries and mutations by `name`. */
  function ActionKey(a: ActionMetadata): (k: string)
    ensures a.kind != Subscription ==> k == a.name
    ensures a.kind == Subscription ==> k == OrElse(Some(a.name), a.methodName)
  {
    if a.kind == Subscription then OrElse(Some(a.name), a.methodName) else a.name
  }

  /** The write one controller action makes. */
  function ControllerOp(a: ActionMetadata): (op: Op)
    ensures op.Put? && op.typeName == ResolverType(a.kind) && op.key == ActionKey(a)
    ensures op.field == (if a.kind == Subscription then SubscriptionField(a, ActionKey(a)) else ActionField(a))
  {
    var k := ActionKey(a);
    Put(ResolverType(a.kind), k, if a.kind == Subscription then SubscriptionField(a, k) else ActionField(a))
  }

  const NoIteratorError := Error("\"subscriptionAsyncIterator\" must be defined in the framework options in order to use subscriptions.")

  /** Some action is a subscription. */
  predicate HasSubscription(actions: seq<ActionMetadata>) {
    exists i :: 0 <= i < |actions| && actions[i].kind == Subscription
  }

  lemma HasSubscriptionCons(actions: seq<ActionMetadata>)
    requires actions != []
    ensures HasSubscription(actions) <==> actions[0].kind == Subscription || HasSubscription(actions[1..])
  {
    if HasSubscription(actions) && actions[0].kind != Subscription {
      var i :| 0 <= i < |actions| && actions[i].kind == Subscription;
      assert actions[1..][i - 1] == actions[i];
    }
    if HasSubscription(actions[1..]) {
      var j :| 0 <= j < |actions[1..]| && actions[1..][j].kind == Subscription;
      assert actions[j + 1] == actions[1..][j];
    }
  }

  /**
   * `buildControllerResolvers`: one write per action, in order; any
   * subscription without a configured async iterator fails the build.
   */
  function ControllerOps(actions: seq<ActionMetadata>, hasIterator: bool): (r: Result<seq<Op>, Error>)
    ensures r.Failure? <==> !hasIterator && HasSubscription(actions)
    ensures r.Failure? ==> r.error == NoIteratorError
    ensures r.Success? ==> |r.value| == |actions| && forall i :: 0 <= i < |actions| ==> r.value[i] == ControllerOp(actions[i])
    decreases |actions|
  {
    if actions == [] then Success([])
    else
      HasSubscriptionCons(actions);
      if actions[0].kind == Subscription && !hasIterator then Failure(NoIteratorError)
      else
        match ControllerOps(actions[1..], hasIterator)
        case Failure(e) => Failure(e)
        case Success(rest) =>
          var ops := [ControllerOp(actions[0])] + rest;
          assert forall i :: 1 <= i < |actions| ==> ops[i] == rest[i - 1] && actions[i] == actions[1..][i - 1];
          Success(ops)
  }

  /** An ORM entity as the relation resolvers see it. */
  datatype EntityTarget = EntityClassTarget(cls: ClassRef) | EntityNameTarget(name: string)

  datatype EntityMeta = EntityMeta(target: EntityTarget, targetName: string, relations: seq<string>)

  /** The naming strategy applies to class targets only; otherwise the ORM's target name. */
  function RelationTypeName(naming: Naming, e: EntityMeta): (n: string)
    ensures naming.Some? && e.target.EntityClassTarget? ==> n == naming.value(e.target.cls)
    ensures !(naming.Some? && e.target.EntityClassTarget?) ==> n == e.targetName
  {
    if naming.Some? && e.target.EntityClassTarget? then naming.value(e.target.cls) else e.targetName
  }

  /** The writes for one entity: nothing for an empty name, otherwise its entry and one field per relation. */
  function EntityOps(naming: Naming, e: EntityMeta): (ops: seq<Op>)
    ensures RelationTypeName(naming, e) == "" ==> ops == []
    ensures RelationTypeName(naming, e) != "" ==>
      && |ops| == 1 + |e.relations|
      && ops[0] == Touch(RelationTypeName(naming, e))
      && forall j :: 0 <= j < |e.relations| ==>
           ops[j + 1] == Put(RelationTypeName(naming, e), e.relations[j], RelationField(RelationTypeName(naming, e), e.relations[j]))
  {
    var n := RelationTypeName(naming, e);
    if n == "" then []
    else [Touch(n)] + seq(|e.relations|, j requires 0 <= j < |e.relations| => Put(n, e.relations[j], RelationField(n, e.relations[j])))
  }

  function EntitiesOps(naming: Naming, es: seq<EntityMeta>): seq<Op>
    decreases |es|
  {
    if es == [] then [] else EntityOps(naming, es[0]) + EntitiesOps(naming, es[1..])
  }

  /** `buildModelResolversFromEntityMetadata`: nothing without a connection. */
  function RelationOps(naming: Naming, connection: Option<seq<EntityMeta>>): (ops: seq<Op>)
    ensures connection.None? ==> ops == []
  {
    match connection
    case None => []
    case Some(es) => EntitiesOps(naming, es)
  }

  /**
   * A relation resolver returns the parent's own value when it is defined;
   * `None` means the value is loaded through the relation loader.
   */
  function RelationValue(parent: JsValue, property: string): (r: Option<JsValue>)
    ensures r.None? <==> Property(parent, property) == Undefined
    ensures r.Some? ==> parent.Obj? && property in parent.props && r.value == parent.props[property]
  {
    var v := Property(parent, property);
    if v != Undefined then Some(v) else None
  }

  /** The writes for one resolve: its type entry always, its field only when the class has the method. */
  function CustomOp(hasMethod: (ClassRef, string) -> bool, r: ResolveMetadata): (ops: seq<Op>)
    ensures 1 <= |ops| <= 2 && ops[0] == Touch(r.name)
    ensures hasMethod(r.target, r.methodName) <==> |ops| == 2
    ensures |ops| == 2 ==> ops[1] == Put(r.name, r.methodName, ResolveField(r))
  {
    [Touch(r.name)] + if hasMethod(r.target, r.methodName) then [Put(r.name, r.methodName, ResolveField(r))] else []
  }

  /** `buildCustomResolvers` */
  function CustomOps(hasMethod: (ClassRef, string) -> bool, rs: seq<ResolveMetadata>): seq<Op>
    decreases |rs|
  {
    if rs == [] then [] else CustomOp(hasMethod, rs[0]) + CustomOps(hasMethod, rs[1..])
  }

  /** Custom resolves are keyed by the method name, whatever property name they resolve. */
  lemma {:induction false} CustomKeyedByMethod(hasMethod: (ClassRef, string) -> bool, rs: seq<ResolveMetadata>, i: int)
    requires 0 <= i < |CustomOps(hasMethod, rs)| && CustomOps(hasMethod, rs)[i].Put?
    ensures var op := CustomOps(hasMethod, rs)[i];
      op.field.ResolveField? && op.typeName == op.field.resolve.name && op.key == op.field.resolve.methodName
      && hasMethod(op.field.resolve.target, op.field.resolve.methodName)
    decreases |rs|
  {
    if rs != [] {
      var head := CustomOp(hasMethod, rs[0]);
      if i >= |head| {
        assert CustomOps(hasMethod, rs)[i] == CustomOps(hasMethod, rs[1..])[i - |head|];
        CustomKeyedByMethod(hasMethod, rs[1..], i - |head|);
      }
    }
  }

  /** `Object.assign(resolvers, customResolvers)`: whole type entries are replaced, not merged. */
  function Override(rm: ResolverMap, custom: Option<ResolverMap>): (r: ResolverMap)
    ensures custom.None? ==> r == rm
    ensures custom.Some? ==> r.Keys == rm.Keys + custom.value.Keys
    ensures custom.Some? ==> forall t :: t in custom.value ==> r[t] == custom.value[t]
    ensures forall t :: t in rm && (custom.None? || t !in custom.value) ==> r[t] == rm[t]
  {
    match custom
    case None => rm
    case Some(c) => rm + c
  }

  /** The writes of `build` in order: controllers, relations, custom resolves. */
  function BuildOps(o: BuilderOptions, actions: seq<ActionMetadata>, resolves: seq<ResolveMetadata>,
                    connection: Option<seq<EntityMeta>>, hasMethod: (ClassRef, string) -> bool): Result<seq<Op>, Error>
  {
    var cops :- ControllerOps(actions, o.subscriptionIterator);
    Success(cops + RelationOps(o.naming, connection) + CustomOps(hasMethod, resolves))
  }

  /** The resolver map of `build`: defaults, the writes, then the user's overrides. */
  function BuildResolvers(o: BuilderOptions, actions: seq<ActionMetadata>, resolves: seq<ResolveMetadata>,
                          connection: Option<seq<EntityMeta>>, hasMethod: (ClassRef, string) -> bool): (r: Result<ResolverMap, Error>)
    ensures r.Failure? <==> BuildOps(o, actions, resolves, connection, hasMethod).Failure?
    ensures r.Success? ==>
      r.value == Override(ApplyAll(Defaults(), BuildOps(o, actions, resolves, connection, hasMethod).value), o.customResolvers)
  {
    var ops :- BuildOps(o, actions, resolves, connection, hasMethod);
    Success(Override(ApplyAll(Defaults(), ops), o.customResolvers))
  }

  /** What the builder assembles: modules, descriptors, schema paths and the resolver map. */
  datatype Schema = Schema(
    modules: seq<GraphModule>,
    actions: seq<ActionMetadata>,
    resolves: seq<ResolveMetadata>,
    schemaPaths: seq<string>,
    resolvers: ResolverMap)

  /**
   * The constructor and `build`: modules first, descriptors from the
   * registry and the modules, then the schema paths (an empty set fails
   * before any resolver is built), then the resolver map.
   */
  function Build(o: BuilderOptions, instantiate: ClassRef -> GraphModule, s: Storage,
                 connection: Option<seq<EntityMeta>>, hasMethod: (ClassRef, string) -> bool): (r: Result<Schema, Error>)
    ensures var ms := BuildModules(o, instantiate);
      && (LoadSchemaPaths(ms).Failure? ==> r == Failure(NoSchemasError))
      && (r.Success? ==>
            && r.value.modules == ms
            && r.value.actions == ActionBuilder.Build(ms, s)
            && r.value.resolves == ResolveBuilder.Build(o.naming, ms, s)
            && |r.value.schemaPaths| > 0)
    ensures var ms := BuildModules(o, instantiate);
      var rs := BuildResolvers(o, ActionBuilder.Build(ms, s), ResolveBuilder.Build(o.naming, ms, s), connection, hasMethod);
      && (LoadSchemaPaths(ms).Success? ==> (r.Failure? <==> rs.Failure?))
      && (LoadSchemaPaths(ms).Success? && rs.Failure? ==> r.error == rs.error)
      && (r.Success? ==> r.value.schemaPaths == LoadSchemaPaths(ms).value && r.value.resolvers == rs.value)
  {
    var ms := BuildModules(o, instantiate);
    var actions := ActionBuilder.Build(ms, s);
    var resolves := ResolveBuilder.Build(o.naming, ms, s);
    var paths :- LoadSchemaPaths(ms);
    var rm :- BuildResolvers(o, actions, resolves, connection, hasMethod);
    Success(Schema(ms, actions, resolves, paths, rm))
  }

  /**
   * With schemas present, a registered subscription and no
   * `subscriptionIterator` make the build fail with the iterator error.
   */
  lemma BuildNeedsIterator(o: BuilderOptions, instantiate: ClassRef -> GraphModule, s: Storage,
                           connection: Option<seq<EntityMeta>>, hasMethod: (ClassRef, string) -> bool)
    requires LoadSchemaPaths(BuildModules(o, instantiate)).Success?
    requires !o.subscriptionIterator
    requires HasSubscription(ActionBuilder.Build(BuildModules(o, instantiate), s))
    ensures Build(o, instantiate, s, connection, hasMethod) == Failure(NoIteratorError)
  {
    var ms := BuildModules(o, instantiate);
    var actions := ActionBuilder.Build(ms, s);
    assert ControllerOps(actions, false).Failure?;
  }

  /**
   * A field of a type the user does not override holds what the last
   * write of `build` to it put there, or the default's field when there
   * is none.
   */
  lemma BuildResolverField(o: BuilderOptions, instantiate: ClassRef -> GraphModule, s: Storage,
                           connection: Option<seq<EntityMeta>>, hasMethod: (ClassRef, string) -> bool,
                           t: string, k: string)
    requires Build(o, instantiate, s, connection, hasMethod).Success?
    requires o.customResolvers.None? || t !in o.customResolvers.value
    ensures var ms := BuildModules(o, instantiate);
      var ops := BuildOps(o, ActionBuilder.Build(ms, s), ResolveBuilder.Build(o.naming, ms, s), connection, hasMethod);
      && ops.Success?
      && FieldAt(Build(o, instantiate, s, connection, hasMethod).value.resolvers, t, k)
         == LastPut(ops.value, t, k, FieldAt(Defaults(), t, k))
  {
    var ms := BuildModules(o, instantiate);
    var ops := BuildOps(o, ActionBuilder.Build(ms, s), ResolveBuilder.Build(o.naming, ms, s), connection, hasMethod);
    LastWriteWins(Defaults(), ops.value, t, k);
  }

  // ---------------------------------------------------------------------------
  // The actions the resolvers hand to the executor
  // ---------------------------------------------------------------------------

  /** A query or mutation resolver: the executor gets `(args, context, info)`, the parent is dropped. */
  function ControllerCall(a: ActionMetadata, parent: JsValue, args: JsValue, context: JsValue, info: JsValue): (r: Action<JsValue>)
    requires a.kind != Subscription
    ensures r.metadata == ActionDescriptor(a)
    ensures CallFor(r) == ArgsCall(args, context, info)
  {
    assert a.kind.Query? || a.kind.Mutation?;
    Action(ActionDescriptor(a), parent, args, context, info)
  }

  /** A subscription filter: the published payload is the `obj` the method receives first. */
  function SubscriptionCall(a: ActionMetadata, payload: JsValue, args: JsValue, context: JsValue, info: JsValue): (r: Action<JsValue>)
    requires a.kind == Subscription
    ensures r.metadata == ActionDescriptor(a)
    ensures CallFor(r) == ObjCall(payload, args, context, info)
  {
    Action(ActionDescriptor(a), payload, args, context, info)
  }

  /** The filter's verdict: `undefined` becomes `true`, anything else passes through. */
  function FilterResult(outcome: Result<JsValue, Error>): (r: Result<JsValue, Error>)
    ensures outcome.Failure? ==> r == outcome
    ensures outcome.Success? ==> r.Success? && r.value != Undefined
    ensures outcome.Success? && outcome.value != Undefined ==> r == outcome
    ensures outcome == Success(Undefined) ==> r == Success(Bool(true))
  {
    if outcome == Success(Undefined) then Success(Bool(true)) else outcome
  }

  lemma FilterResultIdempotent(outcome: Result<JsValue, Error>)
    ensures FilterResult(FilterResult(outcome)) == FilterResult(outcome)
  {
  }

  /** A resolve without a data loader: the parent is the `obj` the method receives first. */
  function ResolveCall(res: ResolveMetadata, parent: JsValue, args: JsValue, context: JsValue, info: JsValue): (r: Action<JsValue>)
    ensures r.metadata == ResolveDescriptor(res)
    ensures CallFor(r) == ObjCall(parent, args, context, info)
  {
    Action(ResolveDescriptor(res), parent, args, context, info)
  }

  /** One call queued on a data loader. */
  datatype LoadKey = LoadKey(parent: JsValue, args: JsValue, context: JsValue, info: JsValue)

  /** The parents of the queued calls, in queue order. */
  function Parents(keys: seq<LoadKey>): (ps: seq<JsValue>)
    ensures |ps| == |keys| && forall i :: 0 <= i < |keys| ==> ps[i] == keys[i].parent
  {
    seq(|keys|, i requires 0 <= i < |keys| => keys[i].parent)
  }

  /**
   * A batched resolve: one executor call for the whole batch, with every
   * parent as `obj` and the first call's `args`, `context` and `info`.
   * Data loaders never dispatch an empty batch.
   */
  function BatchCall(res: ResolveMetadata, keys: seq<LoadKey>): (r: Action<JsValue>)
    requires |keys| > 0
    ensures r.metadata == ResolveDescriptor(res)
    ensures CallFor(r) == ObjCall(Arr(Parents(keys)), keys[0].args, keys[0].context, keys[0].info)
  {
    Action(ResolveDescriptor(res), Arr(Parents(keys)), keys[0].args, keys[0].context, keys[0].info)
  }

  /** A batch of one differs from the unbatched call only in wrapping the parent in an array. */
  lemma BatchOfOne(res: ResolveMetadata, k: LoadKey)
    ensures BatchCall(res, [k]) == ResolveCall(res, k.parent, k.args, k.context, k.info).(obj := Arr([k.parent]))
  {
    assert Parents([k]) == [k.parent];
  }
}

=== FILE: seqs.dfy ===
/**
 * Order-preserving selection over sequences: the `filter(...).map(...)` and
 * nested `forEach ... push` shapes the builders are made of.
 */
module Seqs {
  import opened Wrappers

  /** The values `f` yields for the elements of `xs`, skipping `None`, in order. */
  function Collect<T, U>(xs: seq<T>, f: T -> Option<U>): (r: seq<U>)
    ensures |r| <= |xs|
    decreases |xs|
  {
    if xs == [] then []
    else (if f(xs[0]).Some? then [f(xs[0]).value] else []) + Collect(xs[1..], f)
  }

  /** Collecting from a concatenation concatenates the collections. */
  lemma {:induction false} CollectConcat<T, U>(a: seq<T>, b: seq<T>, f: T -> Option<U>)
    ensures Collect(a + b, f) == Collect(a, f) + Collect(b, f)
    decreases |a|
  {
    if a == [] {
      assert a + b == b;
    } else {
      var head := if f(a[0]).Some? then [f(a[0]).value] else [];
      assert (a + b)[0] == a[0];
      assert (a + b)[1..] == a[1..] + b;
      assert Collect(a + b, f) == head + Collect(a[1..] + b, f);
      CollectConcat(a[1..], b, f);
      assert Collect(a, f) == head + Collect(a[1..], f);
    }
  }

  /** Collecting with two functions that agree on every element gives the same result. */
  lemma {:induction false} CollectCongruent<T, U>(xs: seq<T>, f: T -> Option<U>, g: T -> Option<U>)
    requires forall i :: 0 <= i < |xs| ==> f(xs[i]) == g(xs[i])
    ensures Collect(xs, f) == Collect(xs, g)
    decreases |xs|
  {
    if xs != [] {
      assert forall i :: 0 <= i < |xs[1..]| ==> xs[1..][i] == xs[i + 1];
      CollectCongruent(xs[1..], f, g);
    }
  }

  /** An element is collected iff `f` yields it for some element. */
  lemma {:induction false} CollectMembership<T, U>(xs: seq<T>, f: T -> Option<U>, y: U)
    ensures y in Collect(xs, f) <==> exists i :: 0 <= i < |xs| && f(xs[i]) == Some(y)
    decreases |xs|
  {
    if xs != [] {
      CollectMembership(xs[1..], f, y);
      if y in Collect(xs[1..], f) {
        var i :| 0 <= i < |xs[1..]| && f(xs[1..][i]) == Some(y);
        assert f(xs[i + 1]) == Some(y);
      }
      if exists i :: 0 <= i < |xs| && f(xs[i]) == Some(y) {
        var i :| 0 <= i < |xs| && f(xs[i]) == Some(y);
        if i > 0 {
          assert xs[1..][i - 1] == xs[i];
        }
      }
    }
  }

  /** The number of elements of `xs` for which `f` yields a value. */
  function Count<T, U>(xs: seq<T>, f: T -> Option<U>): nat
    decreases |xs|
  {
    if xs == [] then 0 else (if f(xs[0]).Some? then 1 else 0) + Count(xs[1..], f)
  }

  /** One output per yielding element. */
  lemma {:induction false} CollectLength<T, U>(xs: seq<T>, f: T -> Option<U>)
    ensures |Collect(xs, f)| == Count(xs, f)
    decreases |xs|
  {
    if xs != [] {
      CollectLength(xs[1..], f);
    }
  }

  /** Nothing yielded, nothing collected. */
  lemma {:induction false} CollectNone<T, U>(xs: seq<T>, f: T -> Option<U>)
    requires forall i :: 0 <= i < |xs| ==> f(xs[i]).None?
    ensures Collect(xs, f) == []
    decreases |xs|
  {
    if xs != [] {
      assert f(xs[0]).None?;
      CollectNone(xs[1..], f);
    }
  }

  /** Everything yields: the collection is the element-wise image. */
  lemma {:induction false} CollectAll<T, U>(xs: seq<T>, f: T -> Option<U>)
    requires forall i :: 0 <= i < |xs| ==> f(xs[i]).Some?
    ensures |Collect(xs, f)| == |xs|
    ensures forall i :: 0 <= i < |xs| ==> Some(Collect(xs, f)[i]) == f(xs[i])
    decreases |xs|
  {
    if xs != [] {
      assert f(xs[0]).Some?;
      CollectAll(xs[1..], f);
      forall i | 0 <= i < |xs|
        ensures Some(Collect(xs, f)[i]) == f(xs[i])
      {
        if i > 0 {
          assert xs[1..][i - 1] == xs[i];
        }
      }
    }
  }

  /** Concatenation of a sequence of sequences. */
  function Flatten<T>(xss: seq<seq<T>>): seq<T>
    decreases |xss|
  {
    if xss == [] then [] else xss[0] + Flatten(xss[1..])
  }

  lemma {:induction false} FlattenConcat<T>(a: seq<seq<T>>, b: seq<seq<T>>)
    ensures Flatten(a + b) == Flatten(a) + Flatten(b)
    decreases |a|
  {
    if a == [] {
      assert a + b == b;
    } else {
      assert (a + b)[1..] == a[1..] + b;
      FlattenConcat(a[1..], b);
    }
  }

  lemma {:induction false} FlattenMembership<T>(xss: seq<seq<T>>, y: T)
    ensures y in Flatten(xss) <==> exists i :: 0 <= i < |xss| && y in xss[i]
    decreases |xss|
  {
    if xss != [] {
      FlattenMembership(xss[1..], y);
      if exists i :: 0 <= i < |xss| && y in xss[i] {
        var i :| 0 <= i < |xss| && y in xss[i];
        if i > 0 {
          assert xss[1..][i - 1] == xss[i];
        }
      }
    }
  }

  /** A flattening is empty iff every part is. */
  lemma {:induction false} FlattenEmpty<T>(xss: seq<seq<T>>)
    ensures Flatten(xss) == [] <==> forall i :: 0 <= i < |xss| ==> xss[i] == []
    decreases |xss|
  {
    if xss != [] {
      FlattenEmpty(xss[1..]);
      if forall i :: 0 <= i < |xss| ==> xss[i] == [] {
        forall i | 0 <= i < |xss| - 1 ensures xss[1..][i] == [] {
          assert xss[1..][i] == xss[i + 1];
        }
      }
      if Flatten(xss) == [] {
        forall i | 0 <= i < |xss| ensures xss[i] == [] {
          if i > 0 { assert xss[i] == xss[1..][i - 1]; }
        }
      }
    }
  }
}

=== FILE: wrappers.dfy ===
/** Failure-compatible result types used across the model. */
module Wrappers {

  datatype Option<+T> = None | Some(value: T) {

    /** The carried value, or `default` when there is none. */
    function GetOr(default: T): T {
      match this
      case Some(v) => v
      case None => default
    }
  }

  /** A computation that either produced a value or threw / rejected with an error. */
  datatype Result<+R, +E> = Success(value: R) | Failure(error: E) {

    predicate IsFailure() {
      Failure?
    }

    function PropagateFailure<U>(): Result<U, E>
      requires Failure?
    {
      Failure(error)
    }

    function Extract(): R
      requires Success?
    {
      value
    }
  }
}

/** Identities and small vocabularies shared by every component. */
module Types {
  import opened Wrappers

  /**
   * Identity of a JavaScript class (constructor function). Two classes may
   * carry the same `name`; `id` tells them apart, as object identity does.
   */
  datatype ClassRef = ClassRef(id: nat, name: string)

  /** The three kinds of controller action. */
  datatype ActionType = Query | Mutation | Subscription

  /**
   * One authorization rule: a list of opaque role tokens checked by the
   * global authorization checker, or a role-checker class resolved from the
   * container.
   */
  datatype AuthorizeSpec = Roles(roles: seq<string>) | Checker(checker: ClassRef)

  /** A thrown error or rejected promise, identified by its message. */
  datatype Error = Error(message: string)

  /** JavaScript truthiness of an optional string: absent and "" are falsy. */
  predicate TruthyString(s: Option<string>) {
    s.Some? && s.value != ""
  }

  /** `s || fallback` for an optional string. */
  function OrElse(s: Option<string>, fallback: string): (r: string)
    ensures TruthyString(s) ==> r == s.value
    ensures !TruthyString(s) ==> r == fallback
  {
    if s.Some? && s.value != "" then s.value else fallback
  }
}
